=== FILE: README.md ===
# AEM calculator and Form 990 number parsing, modelled in Dafny

This project models two pieces of the nonprofit-scoring repository.

The first is `AEMCalculator`, which scores one organisation's financial record. It
computes six sub-metrics and combines them as a weighted sum, the "Altruistic
Effectiveness Metric". The metrics are:

- program expense ratio
- fundraising efficiency
- revenue sustainability
- net surplus margin
- executive pay reasonableness
- transparency

The second is the small, pure part of the Form 990 converter:

- `_to_number`, which turns a captured numeric token into an integer, `None`, or a `ValueError`;
- `_search`, over an abstract regex match;
- the `fiscal_year` string assembled from the captured date fields;
- the placeholder values the converter writes for what it does not extract.

Modelling choices:

- Python floats are exact `real`s.
- The dicts the code iterates over are `seq<Entry<V>>` in insertion order, which is the order `.values()` yields them.
- The weights dict is a `map<string, real>`, because the code only looks keys up in it.
- Python's exceptions become `Result` failures: `ZeroDivisionError`, `KeyError` on a missing weight, and `ValueError` from `int()`.

Files and modules:

- `wrappers.dfy` (`Wrappers`): `Option` and `Result`.
- `dicts.dfy` (`Dicts`): dicts as ordered entries.
- `real_sums.dfy` (`RealSums`): `sum` and `max` over reals.
- `financials.dfy` (`Financials`): the scored record.
- `metrics.dfy` (`Metrics`): the six `_calculate_*` methods.
- `calculator.dfy` (`Calculator`): `__init__` and `calculate_aem`.
- `number_tokens.dfy` (`NumberTokens`): `_to_number`, with Python's `str.strip()` and `int()`.
- `form990.dfy` (`Form990`): `_search`, `fiscal_year`, the placeholders and the `website` field.
- `shady_side.dfy` (`ShadySide`): the Shady Side Academy record kept with the source, scored.

Points where the code's behaviour is easy to mistake, each modelled as the code has it:

- **Stored ratios are ignored.** A record may carry stored `program_expense_ratio` and `fundraising_efficiency` fields (the Shady Side Academy record does). The calculator never reads either: it recomputes the program expense ratio and computes a capped fundraising score instead (`ScoreIgnoresPrecomputedRatios`).
- **No zero guard on the program expense ratio.** With a program breakdown present and zero total expenses, the division raises. The model returns an error result rather than requiring callers to avoid the case.
- **Fundraising efficiency is capped, not logged.** It is `min(ratio, 10) / 10`, with no logarithmic scaling.
- **Executive pay has no midpoint fallback.** Missing salaries or zero expenses score 1.0.
- **Transparency is a plain fraction.** It is the adopted share of the policies, with no sigmoid or per-policy weighting.
- **No normalisation.** Nothing clamps the score to [0, 1], so a deficit can drive it below zero (`DeficitScoresBelowZero`).

## Model

| member | source | states |
|---|---|---|
| `Calculator.DefaultWeights` | aem_calculator.py:10-17 | every factor has a positive default weight, there is no other key, and the six weights sum to 1 |
| `Calculator.New` | aem_calculator.py:10-17 | a falsy argument (`None` or an empty dict) selects the defaults; a non-empty dict replaces them wholesale, without merging |
| `Calculator.DefaultWeightedSum` | aem_calculator.py:10-37 | with the defaults the score is 0.3, 0.2, 0.15, 0.15, 0.1 and 0.1 times the six metrics in order |
| `Calculator.ComputeMetrics` | aem_calculator.py:22-27 | metric computation fails exactly when the program expense ratio raises; otherwise it holds the six metric values |
| `Calculator.FirstMissingWeight` | aem_calculator.py:30-37 | the key reported for a `KeyError` is absent from the weights |
| `Calculator.FirstMissingWeightNone` | aem_calculator.py:30-37 | no key is reported missing exactly when every factor has a weight |
| `Calculator.FirstMissingWeightFirst` | aem_calculator.py:30-37 | the reported key belongs to a factor all of whose predecessors in the sum have weights, so it is the first lookup that raises |
| `Calculator.WeightedSumSpelledOut` | aem_calculator.py:30-37 | the reference weighted sum over the six factors equals the six-term expression keyed by the literal names |
| `Calculator.CalculateAem` | aem_calculator.py:19-39 | a division error propagates; otherwise the call succeeds exactly when all six keys have weights, any other outcome is a `KeyError` naming the first missing key, and the score is the weight-times-value sum over exactly the six factors |
| `Calculator.ScoreIgnoresPrecomputedRatios` | aem_calculator.py:19-39 | the stored `program_expense_ratio` and `fundraising_efficiency` fields never change the score |
| `Calculator.ScoreReadsOnlyFactorWeights` | aem_calculator.py:30-37 | two weight tables that agree on the six factor keys give the same score or the same error; other keys are never read |
| `Calculator.WeightedSumBounds` | aem_calculator.py:30-37 | with non-negative weights and metrics in [0, 1], the weighted sum lies between 0 and the total weight |
| `Calculator.ConvexScoreInUnitInterval` | aem_calculator.py:19-39 | non-negative weights summing to 1 and metrics in [0, 1] give a successful score in [0, 1] |
| `Calculator.DefaultScoreInUnitInterval` | aem_calculator.py:10-39 | with the default weights, metrics in [0, 1] give a score in [0, 1] |
| `Calculator.ConsistentRecordScoresInUnitInterval` | aem_calculator.py:19-84 | a record with non-negative figures, program-service revenue within total revenue, expenses not exceeding revenue, program expenses (non-negative, totalling at most the positive total expenses) and salaries within total expenses has all six metrics in [0, 1] and a default score in [0, 1] |
| `Calculator.DeficitScoresBelowZero` | aem_calculator.py:66-70 | a record spending 100 times its revenue scores -14.75, so the range needs its hypotheses |
| `Metrics.ProgramExpenseRatio` | aem_calculator.py:41-50 | an absent breakdown gives 0; a present one fails exactly when total expenses are 0, and otherwise the ratio times total expenses is the programs' total |
| `Metrics.TotalProgramExpenses` | aem_calculator.py:46-49 | an empty breakdown totals 0, and programs whose expenses (0 when missing) are non-negative give a non-negative total |
| `Dicts.Values` | aem_calculator.py:48 | `.values()` yields one value per entry, in insertion order |
| `RealSums.Sum` | aem_calculator.py:46-49 | `sum` of no values is 0, and a sum of non-negative values is non-negative |
| `Wrappers.Option.GetOr` | aem_calculator.py:47 | `.get(key, default)`: the stored value when the key is present, the default otherwise |
| `Metrics.ProgramExpenseValues` | aem_calculator.py:46-49 | one value per program, in dict order: its `expenses`, or 0 when the key is missing |
| `Metrics.MissingProgramExpensesCountAsZero` | aem_calculator.py:46-49 | a program without `expenses` leaves the ratio as it is, exactly as one spending 0 |
| `Metrics.TotalProgramExpensesPermutation` | aem_calculator.py:46-49 | the programs' total does not depend on their order |
| `Metrics.ProgramExpenseRatioOrderIrrelevant` | aem_calculator.py:41-50 | reordering the program breakdown leaves the ratio unchanged |
| `Metrics.ProgramExpenseRatioBounds` | aem_calculator.py:41-50 | non-negative program expenses within positive total expenses give a ratio in [0, 1] |
| `Metrics.Min` | aem_calculator.py:58 | `min(a, b)` is one of its arguments and no larger than either |
| `Metrics.FundraisingEfficiency` | aem_calculator.py:52-58 | zero fundraising expenses give 0; the score never exceeds 1; a ratio of 10 or more gives exactly 1, and a smaller one gives the ratio over 10 |
| `Metrics.FundraisingEfficiencyBounds` | aem_calculator.py:52-58 | positive fundraising expenses and non-negative contributions give a score in [0, 1] |
| `Metrics.FundraisingEfficiencyMonotone` | aem_calculator.py:52-58 | raising more for the same fundraising spend never lowers the score |
| `Metrics.RevenueSustainability` | aem_calculator.py:60-64 | zero revenue gives 0; otherwise the score times revenue is the program-service revenue |
| `Metrics.RevenueSustainabilityBounds` | aem_calculator.py:60-64 | program-service revenue within positive revenue gives a score in [0, 1] |
| `Metrics.NetSurplusMargin` | aem_calculator.py:66-70 | zero revenue gives 0; otherwise the margin times revenue is the surplus; with positive revenue it is negative exactly when expenses exceed revenue, and at most 1 when expenses are non-negative |
| `Metrics.NetSurplusMarginBounds` | aem_calculator.py:66-70 | expenses within positive revenue give a margin in [0, 1] |
| `Metrics.ZeroRevenueRecord` | aem_calculator.py:60-70 | a record with no revenue scores 0 on both revenue metrics instead of raising |
| `Metrics.ExecutivePayReasonableness` | aem_calculator.py:72-78 | missing or empty salaries, or zero expenses, give 1.0; otherwise the score is 1 minus the largest salary's share of expenses |
| `Metrics.ExecutivePayReasonablenessBounds` | aem_calculator.py:72-78 | salaries in [0, total expenses] with positive expenses give a score in [0, 1] |
| `Metrics.Adopted` | aem_calculator.py:84 | Python truthiness of a policy flag: `None` is falsy, and `True` / `False` are themselves |
| `Metrics.CountAdopted` | aem_calculator.py:84 | the number of adopted flags is at most the number of flags |
| `Metrics.CountAdoptedExtremes` | aem_calculator.py:84 | the count is full exactly when every flag is truthy, and zero exactly when none is |
| `Metrics.Transparency` | aem_calculator.py:80-84 | a missing or empty policy dict gives 0; otherwise the score times the number of policies is the number adopted |
| `Metrics.Fraction` | aem_calculator.py:84 | a count out of a positive total is a share in [0, 1], 1 exactly when all count and 0 exactly when none does |
| `Metrics.TransparencyExtremes` | aem_calculator.py:80-84 | transparency is 1 exactly when there are policies and all are adopted, and 0 exactly when none listed is adopted |
| `Metrics.FalseAndNullPoliciesAlike` | aem_calculator.py:84 | a policy recorded as `False` instead of `null` leaves the score unchanged |
| `NumberTokens.RemoveCommas` | convert_990_to_json.py:38 | the result holds no comma |
| `NumberTokens.RemoveCommasAppend` | convert_990_to_json.py:38 | removing commas distributes over concatenation |
| `NumberTokens.StripLeading` | convert_990_to_json.py:38 | `lstrip()` drops exactly the leading whitespace: the result is a suffix, everything dropped is whitespace, and it does not start with whitespace |
| `NumberTokens.StripTrailing` | convert_990_to_json.py:38 | `rstrip()` drops exactly the trailing whitespace |
| `NumberTokens.StripShape` | convert_990_to_json.py:38 | `strip()` never lengthens the text and leaves no whitespace at either end |
| `NumberTokens.CleanShape` | convert_990_to_json.py:38 | the cleaned token is no longer than the token, holds no comma, and neither starts nor ends with whitespace |
| `NumberTokens.IntLiteralShape` | convert_990_to_json.py:39 | a string `int()` accepts ends in a digit and has only digits and underscores after its first character; every non-empty run of digits is accepted |
| `NumberTokens.LiteralValueSign` | convert_990_to_json.py:39 | an accepted literal's value is negative only with a leading minus, never positive with one, and a run of digits denotes its decimal value |
| `NumberTokens.ParseInt` | convert_990_to_json.py:39 | `int()` on a stripped base-10 string succeeds exactly on an optional sign and digits with single underscores between them, and yields the integer those digits denote |
| `NumberTokens.ScanDigitsAccepts` | convert_990_to_json.py:39 | the left-to-right digit scan accepts exactly the digit-group strings |
| `NumberTokens.ScanDigitsValue` | convert_990_to_json.py:39 | the value the scan accumulates is that of the digits with underscores dropped |
| `NumberTokens.ToNumber` | convert_990_to_json.py:34-39 | `None` passes through; a token that cleans to blank or `-` gives `None`; it raises exactly when the cleaned token is neither and not an `int()` literal; a token that cleans to an `int()` literal yields that literal's value |
| `NumberTokens.CommaInsertionKeepsValue` | convert_990_to_json.py:38-39 | inserting a comma anywhere in a token never changes the result |
| `NumberTokens.SignedDigitsConvert` | convert_990_to_json.py:39 | an optional leading minus followed by digits converts to that (negative) integer |
| `NumberTokens.LossExample` | convert_990_to_json.py:39 | `-292` converts to -292 |
| `NumberTokens.BlankCell` | convert_990_to_json.py:39 | a token of whitespace only gives `None` |
| `NumberTokens.DashCell` | convert_990_to_json.py:39 | a dash padded with any whitespace gives `None` |
| `NumberTokens.UnexpectedCharacterRaises` | convert_990_to_json.py:39 | a character other than a digit, a sign or an underscore left after cleaning makes the conversion raise |
| `NumberTokens.TrailingMinusRaises` | convert_990_to_json.py:39 | a cleaned token of two or more characters ending in `-` makes the conversion raise |
| `NumberTokens.ParenthesizedAmountRaises` | convert_990_to_json.py:81 | an amount printed in accounting parentheses, which line 81 captures without its opening parenthesis (digits followed by `)`), raises |
| `NumberTokens.TrailingMinusAmountRaises` | convert_990_to_json.py:85 | digits followed by a minus, which the other-revenue capture admits, raise |
| `NumberTokens.FormatAmountRoundTrip` | convert_990_to_json.py:34-39 | an integer printed with thousands separators and a leading minus converts back to itself |
| `Form990.Search` | convert_990_to_json.py:42-45 | no match gives `None`; a match raises exactly when its cleaned group is not blank, not `-` and not an `int()` literal; a group that cleans to an `int()` literal gives that literal's value, and only such a group gives a number |
| `Form990.SearchFindsAmount` | convert_990_to_json.py:42-45 | a captured printed amount comes back as the amount |
| `Form990.FiscalYear` | convert_990_to_json.py:66-71 | `None` exactly without a match; a well-formed match gives a 24-character string |
| `Form990.IsoDate` | convert_990_to_json.py:67-68 | the assembled date is as long as its three fields plus the two dashes |
| `Form990.ParseDate` | convert_990_to_json.py:67-68 | a date read back from `YYYY-MM-DD` has the widths and digits the pattern guarantees |
| `Form990.ParseFiscalYear` | convert_990_to_json.py:69 | two dates read back from a `fiscal_year` string are well formed |
| `Form990.IsoDateLayout` | convert_990_to_json.py:67-68 | year, month and day sit at offsets 0, 5 and 8, with dashes at 4 and 7 |
| `Form990.ParseIsoDate` | convert_990_to_json.py:67-68 | reading an assembled date gives back the captured fields |
| `Form990.IsoDateOfParse` | convert_990_to_json.py:67-68 | every string the date reader accepts is one the assembly produces |
| `Form990.FiscalYearRoundTrip` | convert_990_to_json.py:66-71 | the start and end dates of a match can be read back from `fiscal_year`, year first |
| `Form990.FiscalYearOfParse` | convert_990_to_json.py:66-71 | every string the reader accepts is the two dates joined by ` to ` |
| `Form990.FiscalYearIgnoresCalendarYear` | convert_990_to_json.py:62-71 | the calendar year the pattern also captures never reaches `fiscal_year` |
| `Form990.PlaceholderPolicies` | convert_990_to_json.py:104-109 | the converter's policy dict has four entries, all `None` |
| `Form990.PlaceholderTransparencyIsZero` | convert_990_to_json.py:104-109 | the placeholder policies give a transparency of 0 |
| `Form990.ConvertedRecordMetrics` | convert_990_to_json.py:99-111 | on a converted record the empty program breakdown gives a ratio of 0 (or a division error when expenses are 0), the empty salaries give 1, and the policies give 0 |
| `Form990.WebsiteAsWritten` | convert_990_to_json.py:77 | the `website` field as written: no match gives `None` |
| `Form990.WebsiteAsWrittenRaises` | convert_990_to_json.py:77 | a captured host name holding a letter or a dot makes the field raise |
| `Form990.Website` | convert_990_to_json.py:77 | the intended `website` field is present exactly when the pattern matched, and holds the captured host name |
| `Form990.WebsiteCorrected` | convert_990_to_json.py:77 | on every host name with a letter or a dot, the as-written field raises while the intended one yields the name |
| `ShadySide.AcademyMetrics` | py_files/GiveWell.py:1-57 | the record's six metrics are 33197547/46214302, 1 (a ratio of about 19.8 capped), 39159042/61264018, 15049716/61264018, 1 and 1 |
| `ShadySide.AcademyPrecomputedRatios` | py_files/GiveWell.py:55-56 | the stored program expense ratio agrees with the computed one; the stored fundraising efficiency is the raw ratio, not the metric |
| `ShadySide.AcademyScore` | py_files/GiveWell.py:1-57 | the record's default score is 0.3 × 33197547/46214302 + 0.2 + 0.15 × 54208758/61264018 + 0.2 |
| `ShadySide.AcademyScoreInUnitInterval` | py_files/GiveWell.py:1-57 | the record is consistent, so its default score lies in [0, 1] |
| `RealSums.SumRemove` | aem_calculator.py:46-49 | taking one element out of a sequence takes its value out of the sum |
| `RealSums.Max` | aem_calculator.py:77 | `max` returns one of the values, and no value exceeds it |

## Left out

- **The analysis methods.** `run_validation.py` calls `sensitivity_analysis`, `analyze_components`, `analyze_normalization` and `cross_validate_schools` on the calculator, but `aem_calculator.py` does not define them, so they are not part of this model. Entropy weighting, sigmoid or z-score normalisation and `log10` scaling are defined in neither file; they would also need transcendental functions.
- Calculator.New: stores the weight table as a value. `weights or {...}` keeps a reference to the caller's non-empty dict, so a later mutation by the caller would change the score; the callers in `main.py:22` and `run_validation.py:11` construct `AEMCalculator()` without an argument, so no caller-supplied dict exists.
- **Float rounding.** Python floats are modelled as exact reals, so the model has no rounding and no `:.3f` / `:.4f` formatting.
- **Unicode digits.** Python's `int()` accepts any Unicode decimal digit, and so does `\d` in the fiscal-year pattern (convert_990_to_json.py:62-65), which has no `re.ASCII` flag. The model accepts ASCII digits only, so `Form990.FiscalYear`, `Form990.ParseDate` and `Form990.FiscalYearRoundTrip` are stated for matches whose groups are ASCII digits.
- **Truthiness of non-boolean policy values.** Python counts non-empty strings and non-zero numbers as adopted; the model has policy values that are `True`, `False` or `null` only.
- **`KeyError` on required fields.** The five monetary totals are plain record fields, so a missing `total_expenses` and similar cases are not modelled. The code branches only on the absence of `largest_program_expenses`, `top_individual_salaries` and `policies`, and those are modelled.
- **A program whose `expenses` is `null`.** `program.get('expenses', 0)` then returns `None`, and `sum` raises `TypeError`. In the model `Program.expenses == None` means the key is missing, which counts as 0; a present `null` cannot be expressed.
- **`null` monetary totals and salaries.** The converter writes `None` for every `_search` that finds no match, and `calculate_aem` then raises `TypeError` on arithmetic such as `0 / None` (aem_calculator.py:50). The record's monetary fields and salary values are plain reals, so this failure is not modelled.
- NumberTokens.ParseInt: accepts decimal literals of any length. Since CPython 3.11 (and 3.10.7), `int()` raises `ValueError` on a string of more than 4300 digits by default. That limit depends on the interpreter version and on `sys.set_int_max_str_digits`, so it is not modelled.
- **A `null` program breakdown.** A `largest_program_expenses` key present with value `null` would raise `AttributeError`. The model treats a `null` breakdown the same as an absent key.
- **PDF reading and the regex engine.** `_search` takes the first captured group, or its absence, as its input. The patterns themselves are not modelled, except for the widths of the fiscal-year fields and the characters that the captures on lines 81 and 85 admit.
- **Organisation name and mission extraction.** These are `title()`, `strip()` and `rstrip(".")` on regex captures and are not modelled. The boolean `re.search` fields are not modelled either.
- **`main()`, `main.py` and `run_validation.py`.** These are argument handling, file I/O and printing.
- **`pipeline/convert_990_to_json.py`.** It is a byte-identical copy of the modelled converter.

## Findings

| source | as written | input that shows it | evidently intended | confidence | as-written member | corrected member |
|---|---|---|---|---|---|---|
| convert_990_to_json.py:77 | `website` is computed with `_search`, which passes the captured host name to `_to_number` and so to `int()` | a form whose text holds `Website: www.shadysideacademy.org`: the capture `[\w.:-]+` takes the host name, and `int("www.shadysideacademy.org")` raises `ValueError`, so `parse_form_990` fails | the host name kept as text, as the stored record shows (`"website": "www.shadysideacademy.org"` in py_files/GiveWell.py:5) | high; not executed | `Form990.WebsiteAsWrittenRaises` | `Form990.WebsiteCorrected` |

=== FILE: calculator.dfy ===
/** `AEMCalculator`: a weight table fixed at construction and the weighted sum of the
    six sub-metrics that `calculate_aem` returns. */
module Calculator {
  import opened Wrappers
  import opened Financials
  import Metrics

  /** The six sub-metrics, in the order `calculate_aem` adds them. */
  datatype Factor =
    | ProgramExpenseRatio
    | FundraisingEfficiency
    | RevenueSustainability
    | NetSurplusMargin
    | ExecutivePayReasonableness
    | Transparency
  {
    /** The factor's key in the weights dict. */
    function Key(): string
    {
      match this
      case ProgramExpenseRatio => "program_expense_ratio"
      case FundraisingEfficiency => "fundraising_efficiency"
      case RevenueSustainability => "revenue_sustainability"
      case NetSurplusMargin => "net_surplus_margin"
      case ExecutivePayReasonableness => "executive_pay_reasonableness"
      case Transparency => "transparency"
    }
  }

  const Factors: seq<Factor> :=
    [ProgramExpenseRatio, FundraisingEfficiency, RevenueSustainability,
     NetSurplusMargin, ExecutivePayReasonableness, Transparency]

  /** The weights dict: factor key to weight. Only looked up, never iterated. */
  type Weights = map<string, real>

  /** A calculator holds nothing but its weights. */
  datatype AEMCalculator = AEMCalculator(weights: Weights)

  /** What `calculate_aem` can raise: `ZeroDivisionError` from the program expense
      ratio, or `KeyError` for a factor the weights dict lacks. */
  datatype AemError = ZeroDivision | MissingWeight(key: string)

  /** Every factor has a weight in `w`. */
  predicate HasWeights(w: Weights)
  {
    forall k: Factor :: k.Key() in w
  }

  /** Each of the factors `ks` has a weight in `w`. */
  predicate Covers(w: Weights, ks: seq<Factor>)
  {
    forall i :: 0 <= i < |ks| ==> ks[i].Key() in w
  }

  lemma CoversFactors(w: Weights)
    ensures Covers(w, Factors) <==> HasWeights(w)
  {
    if Covers(w, Factors) {
      forall k: Factor
        ensures k.Key() in w
      {
        assert k == Factors[0] || k == Factors[1] || k == Factors[2] ||
               k == Factors[3] || k == Factors[4] || k == Factors[5];
      }
    }
  }

  /** The sum of the weights of the factors `ks`. */
  function WeightTotal(w: Weights, ks: seq<Factor>): real
    requires HasWeights(w)
  {
    if ks == [] then 0.0 else w[ks[0].Key()] + WeightTotal(w, ks[1..])
  }

  lemma KeysSpelledOut()
    ensures ProgramExpenseRatio.Key() == "program_expense_ratio"
    ensures FundraisingEfficiency.Key() == "fundraising_efficiency"
    ensures RevenueSustainability.Key() == "revenue_sustainability"
    ensures NetSurplusMargin.Key() == "net_surplus_margin"
    ensures ExecutivePayReasonableness.Key() == "executive_pay_reasonableness"
    ensures Transparency.Key() == "transparency"
  {
  }

  /** The six suffixes of `Factors`, spelled out so that sums over it unfold. */
  lemma FactorsUnfold()
    ensures Factors[1..] == [FundraisingEfficiency, RevenueSustainability, NetSurplusMargin,
                             ExecutivePayReasonableness, Transparency]
    ensures Factors[2..] == [RevenueSustainability, NetSurplusMargin, ExecutivePayReasonableness, Transparency]
    ensures Factors[3..] == [NetSurplusMargin, ExecutivePayReasonableness, Transparency]
    ensures Factors[4..] == [ExecutivePayReasonableness, Transparency]
    ensures Factors[5..] == [Transparency]
    ensures Factors[6..] == []
  {
  }

  lemma WeightTotalOfFactors(w: Weights)
    requires HasWeights(w)
    ensures WeightTotal(w, Factors) ==
              w[ProgramExpenseRatio.Key()] + w[FundraisingEfficiency.Key()] + w[RevenueSustainability.Key()] +
              w[NetSurplusMargin.Key()] + w[ExecutivePayReasonableness.Key()] + w[Transparency.Key()]
  {
    FactorsUnfold();
    assert WeightTotal(w, Factors[5..]) == w[Transparency.Key()];
    assert WeightTotal(w, Factors[4..]) == w[ExecutivePayReasonableness.Key()] + WeightTotal(w, Factors[5..]);
    assert WeightTotal(w, Factors[3..]) == w[NetSurplusMargin.Key()] + WeightTotal(w, Factors[4..]);
    assert WeightTotal(w, Factors[2..]) == w[RevenueSustainability.Key()] + WeightTotal(w, Factors[3..]);
    assert WeightTotal(w, Factors[1..]) == w[FundraisingEfficiency.Key()] + WeightTotal(w, Factors[2..]);
  }

  /** The weights used when none are given. */
  function DefaultWeights(): (w: Weights)
    ensures HasWeights(w)
    ensures forall key :: key in w ==> exists k: Factor :: k.Key() == key
    ensures forall k: Factor :: 0.0 < w[k.Key()]
    ensures WeightTotal(w, Factors) == 1.0
  {
    var w := map[
      "program_expense_ratio" := 0.3,
      "fundraising_efficiency" := 0.2,
      "revenue_sustainability" := 0.15,
      "net_surplus_margin" := 0.15,
      "executive_pay_reasonableness" := 0.1,
      "transparency" := 0.1
    ];
    assert forall k: Factor :: k.Key() in w && 0.0 < w[k.Key()];
    assert forall key :: key in w ==> exists k: Factor :: k.Key() == key by {
      assert ProgramExpenseRatio.Key() == "program_expense_ratio";
      assert FundraisingEfficiency.Key() == "fundraising_efficiency";
      assert RevenueSustainability.Key() == "revenue_sustainability";
      assert NetSurplusMargin.Key() == "net_surplus_margin";
      assert ExecutivePayReasonableness.Key() == "executive_pay_reasonableness";
      assert Transparency.Key() == "transparency";
    }
    WeightTotalOfFactors(w);
    w
  }

  /** `AEMCalculator(weights)`: a falsy argument (`None` or an empty dict) selects the
      defaults; any other dict replaces them wholesale, without merging. */
  function New(weights: Option<Weights>): (c: AEMCalculator)
    ensures weights.None? || weights.value == map[] ==> c.weights == DefaultWeights()
    ensures weights.Some? && weights.value != map[] ==> c.weights == weights.value
  {
    match weights
    case Some(w) => if w == map[] then AEMCalculator(DefaultWeights()) else AEMCalculator(w)
    case None => AEMCalculator(DefaultWeights())
  }

  /** The six sub-metric values of one record. */
  datatype RawMetrics = RawMetrics(
    programExpenseRatio: real,
    fundraisingEfficiency: real,
    revenueSustainability: real,
    netSurplusMargin: real,
    executivePayReasonableness: real,
    transparency: real)
  {
    function Get(k: Factor): real
    {
      match k
      case ProgramExpenseRatio => programExpenseRatio
      case FundraisingEfficiency => fundraisingEfficiency
      case RevenueSustainability => revenueSustainability
      case NetSurplusMargin => netSurplusMargin
      case ExecutivePayReasonableness => executivePayReasonableness
      case Transparency => transparency
    }
  }

  /** The six metrics of a record, computed in the order `calculate_aem` computes them;
      only the program expense ratio can raise. */
  function ComputeMetrics(f: Record): (r: Result<RawMetrics, AemError>)
    ensures r.Failure? <==> Metrics.ProgramExpenseRatio(f).Failure?
    ensures r.Failure? ==> r.error == ZeroDivision
    ensures r.Success? ==>
              && Metrics.ProgramExpenseRatio(f) == Success(r.value.programExpenseRatio)
              && r.value.fundraisingEfficiency == Metrics.FundraisingEfficiency(f)
              && r.value.revenueSustainability == Metrics.RevenueSustainability(f)
              && r.value.netSurplusMargin == Metrics.NetSurplusMargin(f)
              && r.value.executivePayReasonableness == Metrics.ExecutivePayReasonableness(f)
              && r.value.transparency == Metrics.Transparency(f)
  {
    match Metrics.ProgramExpenseRatio(f)
    case Failure(_) => Failure(ZeroDivision)
    case Success(programExpenseRatio) =>
      Success(RawMetrics(
        programExpenseRatio,
        Metrics.FundraisingEfficiency(f),
        Metrics.RevenueSustainability(f),
        Metrics.NetSurplusMargin(f),
        Metrics.ExecutivePayReasonableness(f),
        Metrics.Transparency(f)))
  }

  /** The reference score: the sum over the factors `ks` of weight times value. */
  function WeightedSum(w: Weights, ks: seq<Factor>, m: RawMetrics): real
    requires HasWeights(w)
  {
    if ks == [] then 0.0
    else w[ks[0].Key()] * m.Get(ks[0]) + WeightedSum(w, ks[1..], m)
  }

  lemma WeightedSumOfFactors(w: Weights, m: RawMetrics)
    requires HasWeights(w)
    ensures WeightedSum(w, Factors, m) ==
              w[ProgramExpenseRatio.Key()] * m.programExpenseRatio +
              w[FundraisingEfficiency.Key()] * m.fundraisingEfficiency +
              w[RevenueSustainability.Key()] * m.revenueSustainability +
              w[NetSurplusMargin.Key()] * m.netSurplusMargin +
              w[ExecutivePayReasonableness.Key()] * m.executivePayReasonableness +
              w[Transparency.Key()] * m.transparency
  {
    FactorsUnfold();
    assert WeightedSum(w, Factors[5..], m) == w[Transparency.Key()] * m.transparency;
    assert WeightedSum(w, Factors[4..], m) ==
      w[ExecutivePayReasonableness.Key()] * m.executivePayReasonableness + WeightedSum(w, Factors[5..], m);
    assert WeightedSum(w, Factors[3..], m) ==
      w[NetSurplusMargin.Key()] * m.netSurplusMargin + WeightedSum(w, Factors[4..], m);
    assert WeightedSum(w, Factors[2..], m) ==
      w[RevenueSustainability.Key()] * m.revenueSustainability + WeightedSum(w, Factors[3..], m);
    assert WeightedSum(w, Factors[1..], m) ==
      w[FundraisingEfficiency.Key()] * m.fundraisingEfficiency + WeightedSum(w, Factors[2..], m);
  }

  /** The first of the factors `ks` whose key the weights lack: the lookup that raises
      `KeyError` when the weighted sum is evaluated left to right. */
  function FirstMissingWeight(w: Weights, ks: seq<Factor>): (m: Option<string>)
    ensures m.Some? ==> m.value !in w
  {
    if ks == [] then None
    else if ks[0].Key() !in w then Some(ks[0].Key())
    else FirstMissingWeight(w, ks[1..])
  }

  /** No key is reported missing exactly when every factor has a weight. */
  lemma {:induction false} FirstMissingWeightNone(w: Weights, ks: seq<Factor>)
    ensures FirstMissingWeight(w, ks).None? <==> Covers(w, ks)
  {
    if ks != [] {
      var rest := ks[1..];
      FirstMissingWeightNone(w, rest);
      assert Covers(w, ks) <==> ks[0].Key() in w && Covers(w, rest) by {
        assert forall i :: 1 <= i < |ks| ==> ks[i] == rest[i - 1];
      }
    }
  }

  /** A key reported missing belongs to a factor all of whose predecessors have weights. */
  lemma {:induction false} FirstMissingWeightFirst(w: Weights, ks: seq<Factor>)
    requires FirstMissingWeight(w, ks).Some?
    ensures var key := FirstMissingWeight(w, ks).value;
            exists i :: 0 <= i < |ks| && ks[i].Key() == key && Covers(w, ks[..i])
  {
    var key := FirstMissingWeight(w, ks).value;
    if ks[0].Key() in w {
      var rest := ks[1..];
      FirstMissingWeightFirst(w, rest);
      var j :| 0 <= j < |rest| && rest[j].Key() == key && Covers(w, rest[..j]);
      var pre := ks[..j + 1];
      assert Covers(w, pre) by {
        forall i | 0 <= i < |pre|
          ensures pre[i].Key() in w
        {
          if i > 0 {
            assert pre[i] == rest[..j][i - 1];
          }
        }
      }
      assert ks[j + 1] == rest[j];
    } else {
      assert Covers(w, ks[..0]);
    }
  }

  /** The weighted sum as `calculate_aem` spells it out, key by key. */
  lemma WeightedSumSpelledOut(w: Weights, m: RawMetrics)
    requires HasWeights(w)
    ensures "program_expense_ratio" in w && "fundraising_efficiency" in w && "revenue_sustainability" in w
    ensures "net_surplus_margin" in w && "executive_pay_reasonableness" in w && "transparency" in w
    ensures WeightedSum(w, Factors, m) ==
              w["program_expense_ratio"] * m.programExpenseRatio +
              w["fundraising_efficiency"] * m.fundraisingEfficiency +
              w["revenue_sustainability"] * m.revenueSustainability +
              w["net_surplus_margin"] * m.netSurplusMargin +
              w["executive_pay_reasonableness"] * m.executivePayReasonableness +
              w["transparency"] * m.transparency
  {
    KeysSpelledOut();
    WeightedSumOfFactors(w, m);
  }

  /** With the default weights the score is 0.3, 0.2, 0.15, 0.15, 0.1 and 0.1 times the
      six metrics, in order. */
  lemma DefaultWeightedSum(m: RawMetrics)
    ensures WeightedSum(DefaultWeights(), Factors, m) ==
              0.3 * m.programExpenseRatio + 0.2 * m.fundraisingEfficiency +
              0.15 * m.revenueSustainability + 0.15 * m.netSurplusMargin +
              0.1 * m.executivePayReasonableness + 0.1 * m.transparency
  {
    WeightedSumSpelledOut(DefaultWeights(), m);
  }

  /** `calculate_aem`: the six metrics are computed first (only the program expense
      ratio can raise), then combined as a weighted sum whose weight lookups raise
      `KeyError` at the first missing key. On success the score is the weight-times-value
      sum over exactly the six factors, with no other terms. */
  function CalculateAem(c: AEMCalculator, f: Record): (r: Result<real, AemError>)
    ensures ComputeMetrics(f).Failure? ==> r == Failure(ZeroDivision)
    ensures ComputeMetrics(f).Success? ==> (r.Success? <==> HasWeights(c.weights))
    ensures ComputeMetrics(f).Success? && !HasWeights(c.weights) ==> r.Failure? && r.error.MissingWeight?
    ensures r.Failure? && r.error.MissingWeight? ==>
              exists i :: 0 <= i < |Factors| && Factors[i].Key() == r.error.key
                && r.error.key !in c.weights && Covers(c.weights, Factors[..i])
    ensures r.Success? ==>
              HasWeights(c.weights) && ComputeMetrics(f).Success? &&
              r.value == WeightedSum(c.weights, Factors, ComputeMetrics(f).value)
  {
    match ComputeMetrics(f)
    case Failure(e) => Failure(e)
    case Success(m) =>
      CoversFactors(c.weights);
      FirstMissingWeightNone(c.weights, Factors);
      match FirstMissingWeight(c.weights, Factors)
      case Some(key) =>
        FirstMissingWeightFirst(c.weights, Factors);
        Failure(MissingWeight(key))
      case None =>
        var w := c.weights;
        WeightedSumSpelledOut(w, m);
        Success(
          w["program_expense_ratio"] * m.programExpenseRatio +
          w["fundraising_efficiency"] * m.fundraisingEfficiency +
          w["revenue_sustainability"] * m.revenueSustainability +
          w["net_surplus_margin"] * m.netSurplusMargin +
          w["executive_pay_reasonableness"] * m.executivePayReasonableness +
          w["transparency"] * m.transparency)
  }

  /** The precomputed `program_expense_ratio` and `fundraising_efficiency` fields of a
      record never affect the score. */
  lemma ScoreIgnoresPrecomputedRatios(c: AEMCalculator, f: Record, programRatio: Option<real>, efficiency: Option<real>)
    ensures CalculateAem(c, f.(programExpenseRatio := programRatio, fundraisingEfficiency := efficiency))
         == CalculateAem(c, f)
  {
    var g := f.(programExpenseRatio := programRatio, fundraisingEfficiency := efficiency);
    assert ComputeMetrics(g) == ComputeMetrics(f) by {
      Metrics.ProgramExpenseRatioIgnoresPrecomputed(f, programRatio);
    }
    SameMetricsSameScore(c, g, f);
  }

  /** The score reads the record only through its six metrics. */
  lemma SameMetricsSameScore(c: AEMCalculator, f: Record, g: Record)
    requires ComputeMetrics(f) == ComputeMetrics(g)
    ensures CalculateAem(c, f) == CalculateAem(c, g)
  {
  }

  /** Two weight tables that agree on the six factor keys. */
  predicate AgreeOnFactors(w: Weights, v: Weights)
  {
    forall k: Factor :: (k.Key() in w <==> k.Key() in v) && (k.Key() in w ==> w[k.Key()] == v[k.Key()])
  }

  lemma {:induction false} WeightedSumAgree(w: Weights, v: Weights, ks: seq<Factor>, m: RawMetrics)
    requires HasWeights(w) && AgreeOnFactors(w, v)
    ensures HasWeights(v)
    ensures WeightedSum(w, ks, m) == WeightedSum(v, ks, m)
  {
    if ks != [] {
      WeightedSumAgree(w, v, ks[1..], m);
    }
  }

  lemma {:induction false} FirstMissingWeightAgree(w: Weights, v: Weights, ks: seq<Factor>)
    requires AgreeOnFactors(w, v)
    ensures FirstMissingWeight(w, ks) == FirstMissingWeight(v, ks)
  {
    if ks != [] {
      FirstMissingWeightAgree(w, v, ks[1..]);
    }
  }

  /** Only the six factor keys of the weights dict matter: entries under any other key
      are never read, so the score has no other terms. */
  lemma ScoreReadsOnlyFactorWeights(c: AEMCalculator, d: AEMCalculator, f: Record)
    requires AgreeOnFactors(c.weights, d.weights)
    ensures CalculateAem(c, f) == CalculateAem(d, f)
  {
    FirstMissingWeightAgree(c.weights, d.weights, Factors);
    if HasWeights(c.weights) && ComputeMetrics(f).Success? {
      WeightedSumAgree(c.weights, d.weights, Factors, ComputeMetrics(f).value);
    }
    if HasWeights(d.weights) {
      assert HasWeights(c.weights);
    }
  }

  /** Every weight is non-negative. */
  predicate NonNegativeWeights(w: Weights)
  {
    forall k: Factor :: k.Key() in w && 0.0 <= w[k.Key()]
  }

  predicate InUnitInterval(m: RawMetrics)
  {
    forall k: Factor :: 0.0 <= m.Get(k) <= 1.0
  }

  /** With non-negative weights and values in [0, 1], a weighted sum lies between zero
      and the total weight. */
  lemma {:induction false} WeightedSumBounds(w: Weights, ks: seq<Factor>, m: RawMetrics)
    requires NonNegativeWeights(w) && InUnitInterval(m)
    ensures 0.0 <= WeightedSum(w, ks, m) <= WeightTotal(w, ks)
  {
    if ks == [] {
      assert WeightTotal(w, ks) == 0.0 && WeightedSum(w, ks, m) == 0.0;
    } else {
      var k := ks[0];
      WeightedSumBounds(w, ks[1..], m);
      BoundsStep(w[k.Key()], m.Get(k), WeightedSum(w, ks[1..], m), WeightTotal(w, ks[1..]),
                 WeightedSum(w, ks, m), WeightTotal(w, ks));
    }
  }

  /** One more term, a non-negative weight times a value in [0, 1], keeps a weighted sum
      between zero and the total weight. */
  lemma BoundsStep(x: real, y: real, sum: real, total: real, sum': real, total': real)
    requires 0.0 <= x && 0.0 <= y <= 1.0 && 0.0 <= sum <= total
    requires sum' == x * y + sum && total' == x + total
    ensures 0.0 <= sum' <= total'
  {
    UnitProduct(x, y);
  }

  /** Scaling a non-negative weight by a value in [0, 1] keeps it between zero and itself. */
  lemma UnitProduct(x: real, y: real)
    requires 0.0 <= x && 0.0 <= y <= 1.0
    ensures 0.0 <= x * y <= x
  {
    assert x * (1.0 - y) >= 0.0;
  }

  /** With non-negative weights summing to 1 the score is a convex combination of the six
      metrics, so metrics in [0, 1] give a score in [0, 1]. */
  lemma ConvexScoreInUnitInterval(c: AEMCalculator, f: Record)
    requires NonNegativeWeights(c.weights) && WeightTotal(c.weights, Factors) == 1.0
    requires ComputeMetrics(f).Success? && InUnitInterval(ComputeMetrics(f).value)
    ensures CalculateAem(c, f).Success?
    ensures 0.0 <= CalculateAem(c, f).value <= 1.0
  {
    WeightedSumBounds(c.weights, Factors, ComputeMetrics(f).value);
  }

  /** With the default weights, metrics in [0, 1] give a score in [0, 1]. */
  lemma DefaultScoreInUnitInterval(f: Record)
    requires ComputeMetrics(f).Success? && InUnitInterval(ComputeMetrics(f).value)
    ensures CalculateAem(New(None), f).Success?
    ensures 0.0 <= CalculateAem(New(None), f).value <= 1.0
  {
    ConvexScoreInUnitInterval(New(None), f);
  }

  /** A record whose figures are mutually consistent: expenses covered by revenue,
      program-service revenue part of revenue, non-negative fundraising figures, program
      expenses and salaries within total expenses. */
  predicate ConsistentRecord(f: Record)
  {
    && 0.0 <= f.totalExpenses <= f.totalRevenue
    && 0.0 <= f.programServiceRevenue <= f.totalRevenue
    && 0.0 <= f.contributionsAndGrants && 0.0 <= f.fundraisingExpenses
    && (f.largestProgramExpenses.Some? ==>
          var programs := f.largestProgramExpenses.value;
          && 0.0 < f.totalExpenses
          && (forall i :: 0 <= i < |programs| ==> 0.0 <= programs[i].value.expenses.GetOr(0.0))
          && Metrics.TotalProgramExpenses(programs) <= f.totalExpenses)
    && (f.topIndividualSalaries.Some? ==>
          var salaries := f.topIndividualSalaries.value;
          forall i :: 0 <= i < |salaries| ==> 0.0 <= salaries[i].value <= f.totalExpenses)
  }

  /** A consistent record has all six metrics in [0, 1], and so a default score in [0, 1]. */
  lemma ConsistentRecordScoresInUnitInterval(f: Record)
    requires ConsistentRecord(f)
    ensures ComputeMetrics(f).Success? && InUnitInterval(ComputeMetrics(f).value)
    ensures CalculateAem(New(None), f).Success?
    ensures 0.0 <= CalculateAem(New(None), f).value <= 1.0
  {
    if f.largestProgramExpenses.Some? {
      Metrics.ProgramExpenseRatioBounds(f);
    }
    if f.fundraisingExpenses != 0.0 {
      Metrics.FundraisingEfficiencyBounds(f);
    }
    if f.totalRevenue != 0.0 {
      Metrics.RevenueSustainabilityBounds(f);
      Metrics.NetSurplusMarginBounds(f);
    }
    if f.totalExpenses != 0.0 {
      Metrics.ExecutivePayReasonablenessBounds(f);
    }
    Metrics.TransparencyBounds(f);
    var m := ComputeMetrics(f).value;
    assert InUnitInterval(m) by {
      forall k: Factor
        ensures 0.0 <= m.Get(k) <= 1.0
      {
      }
    }
    DefaultScoreInUnitInterval(f);
  }

  /** The [0, 1] range needs the hypotheses: a deficit makes the net surplus margin
      negative without bound, and the default score with it. */
  lemma DeficitScoresBelowZero()
    ensures var f := Record("Deficit", 1.0, 100.0, 0.0, 0.0, 0.0, None, None, None, None, None);
            CalculateAem(New(None), f) == Success(-14.75)
  {
    var f := Record("Deficit", 1.0, 100.0, 0.0, 0.0, 0.0, None, None, None, None, None);
    var m := RawMetrics(0.0, 0.0, 0.0, -99.0, 1.0, 0.0);
    assert ComputeMetrics(f) == Success(m) by {
      assert Metrics.NetSurplusMargin(f) == -99.0;
    }
    assert New(None).weights == DefaultWeights();
    DefaultWeightedSum(m);
  }
}

=== FILE: dicts.dfy ===
/** Python dictionaries whose values the scoring code iterates over. A dict is kept as
    its entries in insertion order, which is the order `.values()` yields them. Nothing
    here rules out a repeated key, which a Python dict cannot hold; the scoring code only
    iterates over values, so no member below depends on keys being distinct. */
module Dicts {

  datatype Entry<V> = Entry(key: string, value: V)

  type Dict<V> = seq<Entry<V>>

  /** `d.values()`, in iteration order. */
  function Values<V>(d: Dict<V>): (vs: seq<V>)
    ensures |vs| == |d|
    ensures forall i :: 0 <= i < |d| ==> vs[i] == d[i].value
  {
    seq(|d|, i requires 0 <= i < |d| => d[i].value)
  }
}

=== FILE: financials.dfy ===
/** The financial record the calculator scores: the dict a Form 990 conversion produces,
    with the fields the scoring code reads. */
module Financials {
  import opened Wrappers
  import opened Dicts

  /** One entry of `largest_program_expenses`. Every key is optional in the source;
      only `expenses` is read by the scoring code. */
  datatype Program = Program(expenses: Option<real>, revenue: Option<real>, grants: Option<real>)

  /** A financial record. The five monetary totals are always present (the code indexes
      them directly). `largest_program_expenses`, `top_individual_salaries` and `policies`
      are `None` when the key is absent or holds `null`. A policy flag is `None` when it
      holds `null`, as the converter's placeholders do. The two precomputed ratios are
      carried because real records hold them, though the calculator never reads them. */
  datatype Record = Record(
    organizationName: string,
    totalRevenue: real,
    totalExpenses: real,
    contributionsAndGrants: real,
    programServiceRevenue: real,
    fundraisingExpenses: real,
    largestProgramExpenses: Option<Dict<Program>>,
    topIndividualSalaries: Option<Dict<real>>,
    policies: Option<Dict<Option<bool>>>,
    programExpenseRatio: Option<real>,
    fundraisingEfficiency: Option<real>
  )
}

=== FILE: form990.dfy ===
/** The pieces of `parse_form_990` that are logic rather than I/O: `_search` over an
    abstract regex match, the assembly of the `fiscal_year` string, and the placeholder
    values the converter writes for what it cannot extract. */
module Form990 {
  import opened Wrappers
  import opened Dicts
  import opened Financials
  import opened NumberTokens
  import Metrics

  // ---------------------------------------------------------------------------
  // `_search`
  // ---------------------------------------------------------------------------

  /** `_search(pattern, text)`. The regex engine is not modelled: `capture` is the first
      group of the first match, or `None` when the pattern does not match. */
  function Search(capture: Option<string>): (r: Result<Option<int>, ParseError>)
    ensures capture.None? ==> r == Success(None)
    ensures r.Failure? <==>
              capture.Some? && Clean(capture.value) != "" && Clean(capture.value) != "-"
              && !IsIntLiteral(Clean(capture.value))
    ensures r.Success? && r.value.Some? ==>
              capture.Some? && IsIntLiteral(Clean(capture.value))
              && r.value.value == LiteralValue(Clean(capture.value))
    ensures capture.Some? && IsIntLiteral(Clean(capture.value)) ==>
              r == Success(Some(LiteralValue(Clean(capture.value))))
  {
    match capture
    case None => Success(None)
    case Some(group) => ToNumber(Some(group))
  }

  /** A printed amount that the pattern captures comes back as the amount. */
  lemma SearchFindsAmount(n: int)
    ensures Search(Some(FormatAmount(n))) == Success(Some(n))
  {
    FormatAmountRoundTrip(n);
  }

  // ---------------------------------------------------------------------------
  // `fiscal_year`
  // ---------------------------------------------------------------------------

  /** The seven groups of the fiscal-year pattern: the calendar year, then the start and
      end dates as the form prints them, month first. */
  datatype FiscalYearMatch = FiscalYearMatch(
    calendarYear: string,
    startMonth: string, startDay: string, startYear: string,
    endMonth: string, endDay: string, endYear: string)

  /** A date as `YYYY-MM-DD` assembles it. */
  datatype Date = Date(year: string, month: string, day: string)

  predicate AllDigits(s: string)
  {
    forall i :: 0 <= i < |s| ==> IsDigit(s[i])
  }

  /** The field widths `\d{4}` and `\d{2}` impose. */
  predicate WellFormedDate(d: Date)
  {
    |d.year| == 4 && |d.month| == 2 && |d.day| == 2
    && AllDigits(d.year) && AllDigits(d.month) && AllDigits(d.day)
  }

  /** The ASCII case of what the pattern guarantees of a match: every group is four or
      two ASCII digits. Python 3's `\d` also matches other Unicode decimal digits, which
      this predicate does not admit. */
  predicate WellFormedMatch(m: FiscalYearMatch)
  {
    |m.calendarYear| == 4 && AllDigits(m.calendarYear)
    && WellFormedDate(StartDate(m)) && WellFormedDate(EndDate(m))
  }

  function StartDate(m: FiscalYearMatch): Date
  {
    Date(m.startYear, m.startMonth, m.startDay)
  }

  function EndDate(m: FiscalYearMatch): Date
  {
    Date(m.endYear, m.endMonth, m.endDay)
  }

  /** `f"{year}-{month}-{day}"`. */
  function IsoDate(d: Date): (s: string)
    ensures |s| == |d.year| + |d.month| + |d.day| + 2
  {
    d.year + "-" + d.month + "-" + d.day
  }

  /** The `fiscal_year` value: `None` without a match, otherwise the start date and the
      end date, each reordered year first, joined by ` to `. */
  function FiscalYear(m: Option<FiscalYearMatch>): (r: Option<string>)
    ensures r.None? <==> m.None?
    ensures m.Some? && WellFormedMatch(m.value) ==> |r.value| == 24
  {
    match m
    case None => None
    case Some(g) => Some(IsoDate(StartDate(g)) + " to " + IsoDate(EndDate(g)))
  }

  /** Reading a `YYYY-MM-DD` date back: the inverse of `IsoDate`. */
  function ParseDate(s: string): (r: Option<Date>)
    ensures r.Some? ==> WellFormedDate(r.value)
  {
    if |s| == 10 && s[4] == '-' && s[7] == '-'
       && AllDigits(s[..4]) && AllDigits(s[5..7]) && AllDigits(s[8..])
    then Some(Date(s[..4], s[5..7], s[8..]))
    else None
  }

  /** Reading a `fiscal_year` value back into its two dates. */
  function ParseFiscalYear(s: string): (r: Option<(Date, Date)>)
    ensures r.Some? ==> WellFormedDate(r.value.0) && WellFormedDate(r.value.1)
  {
    if |s| == 24 && s[10..14] == " to " then
      match (ParseDate(s[..10]), ParseDate(s[14..]))
      case (Some(a), Some(b)) => Some((a, b))
      case _ => None
    else None
  }

  /** The pieces of an assembled date sit at fixed offsets. */
  lemma IsoDateLayout(d: Date)
    requires WellFormedDate(d)
    ensures var s := IsoDate(d);
            |s| == 10 && s[4] == '-' && s[7] == '-'
            && s[..4] == d.year && s[5..7] == d.month && s[8..] == d.day
  {
    var s := IsoDate(d);
    assert s == d.year + ("-" + d.month + "-" + d.day);
    var t := "-" + d.month + "-" + d.day;
    assert t == "-" + d.month + ("-" + d.day);
    assert s[4..] == t;
    assert t[1..3] == d.month && t[3] == '-' && t[4..] == d.day;
  }

  lemma {:induction false} ParseIsoDate(d: Date)
    requires WellFormedDate(d)
    ensures ParseDate(IsoDate(d)) == Some(d)
  {
    IsoDateLayout(d);
  }

  /** Every well-formed date string is one `IsoDate` assembles. */
  lemma {:induction false} IsoDateOfParse(s: string)
    requires ParseDate(s).Some?
    ensures IsoDate(ParseDate(s).value) == s
  {
    var d := ParseDate(s).value;
    IsoDateLayout(d);
    var t := IsoDate(d);
    assert |t| == |s|;
    forall i | 0 <= i < |s|
      ensures t[i] == s[i]
    {
      if i < 4 {
        assert t[i] == t[..4][i];
        assert s[i] == s[..4][i];
      } else if 5 <= i < 7 {
        assert t[i] == t[5..7][i - 5];
        assert s[i] == s[5..7][i - 5];
      } else if 8 <= i {
        assert t[i] == t[8..][i - 8];
        assert s[i] == s[8..][i - 8];
      }
    }
  }

  /** The two dates of a match can be read back from the `fiscal_year` string. */
  lemma FiscalYearRoundTrip(m: FiscalYearMatch)
    requires WellFormedMatch(m)
    ensures ParseFiscalYear(FiscalYear(Some(m)).value) == Some((StartDate(m), EndDate(m)))
  {
    var a, b := IsoDate(StartDate(m)), IsoDate(EndDate(m));
    var s := a + " to " + b;
    assert s[..10] == a && s[10..14] == " to " && s[14..] == b by {
      assert s == a + (" to " + b);
    }
    ParseIsoDate(StartDate(m));
    ParseIsoDate(EndDate(m));
  }

  /** Every string `ParseFiscalYear` accepts is a `fiscal_year` value: the two dates
      joined by ` to `. */
  lemma FiscalYearOfParse(s: string)
    requires ParseFiscalYear(s).Some?
    ensures var (a, b) := ParseFiscalYear(s).value;
            s == IsoDate(a) + " to " + IsoDate(b)
  {
    IsoDateOfParse(s[..10]);
    IsoDateOfParse(s[14..]);
    assert s == s[..10] + s[10..14] + s[14..];
  }

  /** The calendar year the form also prints never reaches `fiscal_year`. */
  lemma FiscalYearIgnoresCalendarYear(m: FiscalYearMatch, year: string)
    ensures FiscalYear(Some(m.(calendarYear := year))) == FiscalYear(Some(m))
  {
    assert StartDate(m.(calendarYear := year)) == StartDate(m);
    assert EndDate(m.(calendarYear := year)) == EndDate(m);
  }

  // ---------------------------------------------------------------------------
  // Placeholders
  // ---------------------------------------------------------------------------

  /** The `policies` dict the converter writes: the four governance questions, each
      `None` because the converter does not read them. */
  function PlaceholderPolicies(): (p: Dict<Option<bool>>)
    ensures |p| == 4
    ensures forall i :: 0 <= i < |p| ==> p[i].value.None?
  {
    [Entry("conflict_of_interest_policy", None),
     Entry("whistleblower_policy", None),
     Entry("document_retention_policy", None),
     Entry("compensation_review_process", None)]
  }

  /** What the converter writes for the program breakdown, the salaries and the
      policies. */
  predicate HasConverterPlaceholders(f: Record)
  {
    && f.largestProgramExpenses == Some([])
    && f.topIndividualSalaries == Some([])
    && f.policies == Some(PlaceholderPolicies())
  }

  /** The placeholder policies count as none adopted, so a converted record scores zero
      on transparency. */
  lemma PlaceholderTransparencyIsZero(f: Record)
    requires f.policies == Some(PlaceholderPolicies())
    ensures Metrics.Transparency(f) == 0.0
  {
    var flags := Values(PlaceholderPolicies());
    assert forall i :: 0 <= i < |flags| ==> !Metrics.Adopted(flags[i]);
    Metrics.CountAdoptedExtremes(flags);
  }

  /** On a converted record the three placeholder-driven metrics are fixed: the empty
      program breakdown gives a ratio of 0 (or a division error when total expenses are
      0), the empty salaries give full pay reasonableness, and the policies give 0. */
  lemma ConvertedRecordMetrics(f: Record)
    requires HasConverterPlaceholders(f)
    ensures Metrics.ProgramExpenseRatio(f) ==
              if f.totalExpenses == 0.0 then Failure(Metrics.ZeroDivision) else Success(0.0)
    ensures Metrics.ExecutivePayReasonableness(f) == 1.0
    ensures Metrics.Transparency(f) == 0.0
  {
    PlaceholderTransparencyIsZero(f);
    if f.totalExpenses != 0.0 {
      assert Metrics.TotalProgramExpenses([]) == 0.0;
    }
  }

  // ---------------------------------------------------------------------------
  // `website`
  // ---------------------------------------------------------------------------

  /** The `website` field as the converter computes it: the captured host name goes
      through `_search`, and so through `int()`. */
  function WebsiteAsWritten(capture: Option<string>): (r: Result<Option<int>, ParseError>)
    ensures capture.None? ==> r == Success(None)
  {
    Search(capture)
  }

  /** Any captured host name holding a letter or a dot, which every real one does,
      makes the as-written conversion raise. */
  lemma WebsiteAsWrittenRaises(host: string, i: nat)
    requires i < |host| && host[i] != ','
    requires !IsDigit(host[i]) && !IsSign(host[i]) && host[i] != '_' && !IsSpace(host[i])
    requires forall j :: 0 <= j < |host| ==> !IsSpace(host[j])
    ensures WebsiteAsWritten(Some(host)).Failure?
  {
    assert Clean(host) == RemoveCommas(host) by {
      NoSpaceCleans(host);
    }
    var c := Clean(host);
    var k := NonCommasBefore(host, i);
    assert k < |c| && c[k] == host[i] by {
      RemoveCommasPosition(host, i);
    }
    UnexpectedCharacterRaises(host, k);
  }

  /** The number of non-comma characters before position `i`. */
  function NonCommasBefore(s: string, i: nat): nat
    requires i <= |s|
  {
    |RemoveCommas(s[..i])|
  }

  /** A non-comma character keeps its place among the non-comma characters. */
  lemma {:induction false} RemoveCommasPosition(s: string, i: nat)
    requires i < |s| && s[i] != ','
    ensures NonCommasBefore(s, i) < |RemoveCommas(s)|
    ensures RemoveCommas(s)[NonCommasBefore(s, i)] == s[i]
  {
    var pre, post := s[..i], s[i..];
    assert s == pre + post;
    RemoveCommasAppend(pre, post);
    assert RemoveCommas(post) == [s[i]] + RemoveCommas(post[1..]) by {
      assert post[0] == s[i];
    }
  }

  /** A token without whitespace is cleaned by removing its commas alone. */
  lemma NoSpaceCleans(s: string)
    requires forall j :: 0 <= j < |s| ==> !IsSpace(s[j])
    ensures Clean(s) == RemoveCommas(s)
  {
    var r := RemoveCommas(s);
    NoSpaceRemoveCommas(s);
    if r != [] {
      StripKeeps(r);
    }
  }

  lemma {:induction false} NoSpaceRemoveCommas(s: string)
    requires forall j :: 0 <= j < |s| ==> !IsSpace(s[j])
    ensures forall j :: 0 <= j < |RemoveCommas(s)| ==> !IsSpace(RemoveCommas(s)[j])
  {
    if s != [] {
      NoSpaceRemoveCommas(s[1..]);
      var head: string := if s[0] == ',' then [] else [s[0]];
      assert RemoveCommas(s) == head + RemoveCommas(s[1..]);
    }
  }

  /** The `website` field as evidently intended: the captured host name, kept as text. */
  function Website(capture: Option<string>): (r: Option<string>)
    ensures r.None? <==> capture.None?
    ensures r.Some? ==> r.value == capture.value
  {
    match capture
    case None => None
    case Some(host) => Some(host)
  }

  /** The two side by side: on every captured host name with a letter or a dot the
      as-written field raises, while the intended one yields the host name. */
  lemma WebsiteCorrected(host: string, i: nat)
    requires i < |host| && host[i] != ','
    requires !IsDigit(host[i]) && !IsSign(host[i]) && host[i] != '_' && !IsSpace(host[i])
    requires forall j :: 0 <= j < |host| ==> !IsSpace(host[j])
    ensures WebsiteAsWritten(Some(host)).Failure?
    ensures Website(Some(host)) == Some(host)
  {
    WebsiteAsWrittenRaises(host, i);
  }
}

=== FILE: metrics.dfy ===
/** The six sub-metrics of `AEMCalculator`, one function per `_calculate_*` method.
    Each reads the record and applies its own guard for a missing or zero input. */
module Metrics {
  import opened Wrappers
  import opened Dicts
  import opened RealSums
  import opened Financials

  /** The one exception a metric can raise: Python's `ZeroDivisionError`. */
  datatype MetricError = ZeroDivision

  /** `program.get('expenses', 0)` for every program, in dict order. */
  function ProgramExpenseValues(programs: Dict<Program>): (es: seq<real>)
    ensures |es| == |programs|
    ensures forall i :: 0 <= i < |programs| ==> es[i] == programs[i].value.expenses.GetOr(0.0)
  {
    seq(|programs|, i requires 0 <= i < |programs| => programs[i].value.expenses.GetOr(0.0))
  }

  /** Total expenses of the listed programs. */
  function TotalProgramExpenses(programs: Dict<Program>): (total: real)
    ensures programs == [] ==> total == 0.0
    ensures (forall i :: 0 <= i < |programs| ==> 0.0 <= programs[i].value.expenses.GetOr(0.0)) ==>
              0.0 <= total
  {
    Sum(ProgramExpenseValues(programs))
  }

  /** A non-negative part of a positive whole is a share in [0, 1]. */
  lemma ShareInUnitInterval(part: real, whole: real)
    requires 0.0 < whole && 0.0 <= part <= whole
    ensures 0.0 <= part / whole <= 1.0
  {
  }

  // ---------------------------------------------------------------------------
  // Program expense ratio
  // ---------------------------------------------------------------------------

  /** Share of total expenses spent on the listed programs. The breakdown being absent
      scores 0; a present breakdown with zero total expenses raises, since the source
      divides without a guard. */
  function ProgramExpenseRatio(f: Record): (r: Result<real, MetricError>)
    ensures r.Failure? <==> f.largestProgramExpenses.Some? && f.totalExpenses == 0.0
    ensures f.largestProgramExpenses.None? ==> r == Success(0.0)
    ensures f.largestProgramExpenses.Some? && r.Success? ==>
              r.value * f.totalExpenses == TotalProgramExpenses(f.largestProgramExpenses.value)
  {
    match f.largestProgramExpenses
    case None => Success(0.0)
    case Some(programs) =>
      if f.totalExpenses == 0.0 then Failure(ZeroDivision)
      else Success(TotalProgramExpenses(programs) / f.totalExpenses)
  }

  /** A precomputed `program_expense_ratio` on the record is never consulted. */
  lemma ProgramExpenseRatioIgnoresPrecomputed(f: Record, precomputed: Option<real>)
    ensures ProgramExpenseRatio(f.(programExpenseRatio := precomputed)) == ProgramExpenseRatio(f)
  {
  }

  /** When the programs spend a non-negative amount no larger than positive total
      expenses, the ratio lies in [0, 1]. */
  lemma ProgramExpenseRatioBounds(f: Record)
    requires f.largestProgramExpenses.Some? && 0.0 < f.totalExpenses
    requires forall i :: 0 <= i < |f.largestProgramExpenses.value| ==>
               0.0 <= f.largestProgramExpenses.value[i].value.expenses.GetOr(0.0)
    requires TotalProgramExpenses(f.largestProgramExpenses.value) <= f.totalExpenses
    ensures ProgramExpenseRatio(f).Success?
    ensures 0.0 <= ProgramExpenseRatio(f).value <= 1.0
  {
    var total := TotalProgramExpenses(f.largestProgramExpenses.value);
    ShareInUnitInterval(total, f.totalExpenses);
  }

  lemma ProgramExpenseValuesAppend(a: Dict<Program>, b: Dict<Program>)
    ensures ProgramExpenseValues(a + b) == ProgramExpenseValues(a) + ProgramExpenseValues(b)
  {
  }

  /** A program without an `expenses` key adds nothing, exactly as one spending 0. */
  lemma MissingProgramExpensesCountAsZero(f: Record, name: string, revenue: Option<real>, grants: Option<real>)
    requires f.largestProgramExpenses.Some?
    ensures var programs := f.largestProgramExpenses.value;
            var missing := f.(largestProgramExpenses := Some(programs + [Entry(name, Program(None, revenue, grants))]));
            var zero := f.(largestProgramExpenses := Some(programs + [Entry(name, Program(Some(0.0), revenue, grants))]));
            ProgramExpenseRatio(missing) == ProgramExpenseRatio(zero) == ProgramExpenseRatio(f)
  {
    var programs := f.largestProgramExpenses.value;
    var extra := [Entry(name, Program(None, revenue, grants))];
    var extraZero := [Entry(name, Program(Some(0.0), revenue, grants))];
    ProgramExpenseValuesAppend(programs, extra);
    ProgramExpenseValuesAppend(programs, extraZero);
    assert ProgramExpenseValues(extra) == ProgramExpenseValues(extraZero) == [0.0];
    SumAppend(ProgramExpenseValues(programs), [0.0]);
    assert Sum([0.0]) == 0.0;
  }

  /** Taking one program out takes its expenses out of the total. */
  lemma TotalProgramExpensesRemove(b: Dict<Program>, i: nat)
    requires i < |b|
    ensures TotalProgramExpenses(b) == b[i].value.expenses.GetOr(0.0) + TotalProgramExpenses(b[..i] + b[i + 1..])
  {
    var vb := ProgramExpenseValues(b);
    SumRemove(vb, i);
    assert vb[..i] + vb[i + 1..] == ProgramExpenseValues(b[..i] + b[i + 1..]);
  }

  lemma NoProgramsSpendNothing(a: Dict<Program>, b: Dict<Program>)
    requires multiset(a) == multiset(b) && |a| == 0
    ensures TotalProgramExpenses(a) == TotalProgramExpenses(b) == 0.0
  {
    assert |b| == |multiset(b)| == 0;
    assert ProgramExpenseValues(a) == [] == ProgramExpenseValues(b);
  }

  lemma {:induction false} TotalProgramExpensesPermutation(a: Dict<Program>, b: Dict<Program>)
    requires multiset(a) == multiset(b)
    ensures TotalProgramExpenses(a) == TotalProgramExpenses(b)
    decreases |a|
  {
    if |a| == 0 {
      NoProgramsSpendNothing(a, b);
    } else {
      MatchingIndex(a, b);
      var i :| 0 <= i < |b| && b[i] == a[0];
      var rest, restB := a[1..], b[..i] + b[i + 1..];
      assert multiset(rest) == multiset(restB) by {
        MultisetRemoveMatching(a, b, i);
      }
      assert TotalProgramExpenses(rest) == TotalProgramExpenses(restB) by {
        TotalProgramExpensesPermutation(rest, restB);
      }
      TotalProgramExpensesMatching(a, b, i);
    }
  }

  lemma TotalProgramExpensesCons(a: Dict<Program>)
    requires 0 < |a|
    ensures TotalProgramExpenses(a) == a[0].value.expenses.GetOr(0.0) + TotalProgramExpenses(a[1..])
  {
    var es := ProgramExpenseValues(a);
    assert es[1..] == ProgramExpenseValues(a[1..]);
  }

  /** Taking the first program out of `a` and a program equal to it out of `b` takes the
      same amount out of both totals. */
  lemma TotalProgramExpensesMatching(a: Dict<Program>, b: Dict<Program>, i: nat)
    requires 0 < |a| && i < |b| && b[i] == a[0]
    requires TotalProgramExpenses(a[1..]) == TotalProgramExpenses(b[..i] + b[i + 1..])
    ensures TotalProgramExpenses(a) == TotalProgramExpenses(b)
  {
    var x := a[0].value.expenses.GetOr(0.0);
    assert TotalProgramExpenses(a) == x + TotalProgramExpenses(a[1..]) by {
      TotalProgramExpensesCons(a);
    }
    assert TotalProgramExpenses(b) == x + TotalProgramExpenses(b[..i] + b[i + 1..]) by {
      TotalProgramExpensesRemove(b, i);
    }
  }

  /** The order the programs are listed in does not change the ratio. */
  lemma ProgramExpenseRatioOrderIrrelevant(f: Record, reordered: Dict<Program>)
    requires f.largestProgramExpenses.Some?
    requires multiset(reordered) == multiset(f.largestProgramExpenses.value)
    ensures ProgramExpenseRatio(f.(largestProgramExpenses := Some(reordered))) == ProgramExpenseRatio(f)
  {
    TotalProgramExpensesPermutation(reordered, f.largestProgramExpenses.value);
  }

  // ---------------------------------------------------------------------------
  // Fundraising efficiency
  // ---------------------------------------------------------------------------

  /** `min(a, b)`. */
  function Min(a: real, b: real): (m: real)
    ensures m <= a && m <= b
    ensures m == a || m == b
  {
    if b < a then b else a
  }

  /** Dollars raised per fundraising dollar, capped at 10 and scaled down by 10.
      No fundraising expenses scores 0. */
  function FundraisingEfficiency(f: Record): (r: real)
    ensures f.fundraisingExpenses == 0.0 ==> r == 0.0
    ensures r <= 1.0
    ensures f.fundraisingExpenses != 0.0 && f.contributionsAndGrants / f.fundraisingExpenses >= 10.0 ==> r == 1.0
    ensures f.fundraisingExpenses != 0.0 && f.contributionsAndGrants / f.fundraisingExpenses <= 10.0 ==>
              10.0 * r * f.fundraisingExpenses == f.contributionsAndGrants
  {
    if f.fundraisingExpenses == 0.0 then 0.0
    else
      var efficiency := f.contributionsAndGrants / f.fundraisingExpenses;
      Min(efficiency, 10.0) / 10.0
  }

  /** With positive fundraising expenses and non-negative contributions the score is in [0, 1]. */
  lemma FundraisingEfficiencyBounds(f: Record)
    requires 0.0 < f.fundraisingExpenses && 0.0 <= f.contributionsAndGrants
    ensures 0.0 <= FundraisingEfficiency(f) <= 1.0
  {
  }

  /** Raising more with the same fundraising spend never lowers the score. */
  lemma FundraisingEfficiencyMonotone(f: Record, moreContributions: real)
    requires 0.0 < f.fundraisingExpenses && f.contributionsAndGrants <= moreContributions
    ensures FundraisingEfficiency(f) <= FundraisingEfficiency(f.(contributionsAndGrants := moreContributions))
  {
    var g := f.(contributionsAndGrants := moreContributions);
    assert f.contributionsAndGrants / f.fundraisingExpenses <= g.contributionsAndGrants / g.fundraisingExpenses;
  }

  // ---------------------------------------------------------------------------
  // Revenue sustainability and net surplus margin
  // ---------------------------------------------------------------------------

  /** Share of revenue earned from program services; zero revenue scores 0. */
  function RevenueSustainability(f: Record): (r: real)
    ensures f.totalRevenue == 0.0 ==> r == 0.0
    ensures f.totalRevenue != 0.0 ==> r * f.totalRevenue == f.programServiceRevenue
  {
    if f.totalRevenue == 0.0 then 0.0
    else f.programServiceRevenue / f.totalRevenue
  }

  /** Program-service revenue that is a non-negative part of positive total revenue
      gives a score in [0, 1]. */
  lemma RevenueSustainabilityBounds(f: Record)
    requires 0.0 < f.totalRevenue && 0.0 <= f.programServiceRevenue <= f.totalRevenue
    ensures 0.0 <= RevenueSustainability(f) <= 1.0
  {
    ShareInUnitInterval(f.programServiceRevenue, f.totalRevenue);
  }

  /** Surplus as a share of revenue; zero revenue scores 0. A deficit gives a negative score. */
  function NetSurplusMargin(f: Record): (r: real)
    ensures f.totalRevenue == 0.0 ==> r == 0.0
    ensures f.totalRevenue != 0.0 ==> r * f.totalRevenue == f.totalRevenue - f.totalExpenses
    ensures 0.0 < f.totalRevenue ==> (r < 0.0 <==> f.totalExpenses > f.totalRevenue)
    ensures 0.0 < f.totalRevenue && 0.0 <= f.totalExpenses ==> r <= 1.0
  {
    if f.totalRevenue == 0.0 then 0.0
    else (f.totalRevenue - f.totalExpenses) / f.totalRevenue
  }

  /** Expenses that do not exceed positive revenue give a margin in [0, 1]. */
  lemma NetSurplusMarginBounds(f: Record)
    requires 0.0 < f.totalRevenue && 0.0 <= f.totalExpenses <= f.totalRevenue
    ensures 0.0 <= NetSurplusMargin(f) <= 1.0
  {
    ShareInUnitInterval(f.totalRevenue - f.totalExpenses, f.totalRevenue);
  }

  /** A record with no revenue and no expenses scores 0 on both revenue metrics rather
      than raising. */
  lemma ZeroRevenueRecord(f: Record)
    requires f.totalRevenue == 0.0 && f.totalExpenses == 0.0
    ensures RevenueSustainability(f) == 0.0 && NetSurplusMargin(f) == 0.0
  {
  }

  // ---------------------------------------------------------------------------
  // Executive pay reasonableness
  // ---------------------------------------------------------------------------

  /** One minus the largest salary's share of total expenses. No salary data, or zero
      total expenses, scores the full 1.0. */
  function ExecutivePayReasonableness(f: Record): (r: real)
    ensures f.topIndividualSalaries.None? || f.topIndividualSalaries.value == [] || f.totalExpenses == 0.0 ==> r == 1.0
    ensures f.topIndividualSalaries.Some? && f.topIndividualSalaries.value != [] && f.totalExpenses != 0.0 ==>
              var salaries := f.topIndividualSalaries.value;
              && (exists i :: 0 <= i < |salaries| && r == 1.0 - salaries[i].value / f.totalExpenses)
              && (forall i :: 0 <= i < |salaries| ==> salaries[i].value <= (1.0 - r) * f.totalExpenses)
  {
    match f.topIndividualSalaries
    case None => 1.0
    case Some(salaries) =>
      if salaries == [] || f.totalExpenses == 0.0 then 1.0
      else
        var topSalary := Max(Values(salaries));
        1.0 - topSalary / f.totalExpenses
  }

  /** Non-negative salaries none above positive total expenses give a score in [0, 1]. */
  lemma ExecutivePayReasonablenessBounds(f: Record)
    requires 0.0 < f.totalExpenses
    requires f.topIndividualSalaries.Some? ==>
               forall i :: 0 <= i < |f.topIndividualSalaries.value| ==>
                 0.0 <= f.topIndividualSalaries.value[i].value <= f.totalExpenses
    ensures 0.0 <= ExecutivePayReasonableness(f) <= 1.0
  {
    if f.topIndividualSalaries.Some? && f.topIndividualSalaries.value != [] {
      var salaries := f.topIndividualSalaries.value;
      var r := ExecutivePayReasonableness(f);
      var i :| 0 <= i < |salaries| && r == 1.0 - salaries[i].value / f.totalExpenses;
      ShareInUnitInterval(salaries[i].value, f.totalExpenses);
    }
  }

  // ---------------------------------------------------------------------------
  // Transparency
  // ---------------------------------------------------------------------------

  /** Python truthiness of a policy flag: `None` and `False` both count as not adopted. */
  predicate Adopted(flag: Option<bool>): (b: bool)
    ensures flag.None? ==> !b
    ensures flag.Some? ==> (b <==> flag.value)
  {
    flag == Some(true)
  }

  /** `sum(1 for p in flags if p)`. */
  function CountAdopted(flags: seq<Option<bool>>): (n: nat)
    ensures n <= |flags|
  {
    if flags == [] then 0
    else (if Adopted(flags[0]) then 1 else 0) + CountAdopted(flags[1..])
  }

  /** Every flag is adopted exactly when the count is full, and none exactly when it
      is zero. */
  lemma {:induction false} CountAdoptedExtremes(flags: seq<Option<bool>>)
    ensures CountAdopted(flags) == |flags| <==> forall i :: 0 <= i < |flags| ==> Adopted(flags[i])
    ensures CountAdopted(flags) == 0 <==> forall i :: 0 <= i < |flags| ==> !Adopted(flags[i])
  {
    if flags != [] {
      CountAdoptedExtremes(flags[1..]);
      assert forall i :: 1 <= i < |flags| ==> flags[i] == flags[1..][i - 1];
    }
  }

  /** Fraction of the listed governance policies that are adopted. A missing or empty
      policy dict scores 0. */
  function Transparency(f: Record): (r: real)
    ensures f.policies.None? || f.policies.value == [] ==> r == 0.0
    ensures f.policies.Some? && f.policies.value != [] ==>
              r * (|f.policies.value| as real) == CountAdopted(Values(f.policies.value)) as real
  {
    match f.policies
    case None => 0.0
    case Some(policies) =>
      if policies == [] then 0.0
      else
        var flags := Values(policies);
        Fraction(CountAdopted(flags), |policies|)
  }

  /** `count / total` for a count out of a positive total: a share in [0, 1], 1 exactly
      when every item counts and 0 exactly when none does. */
  function Fraction(count: nat, total: nat): (q: real)
    requires 0 < total && count <= total
    ensures 0.0 <= q <= 1.0
    ensures q * (total as real) == count as real
    ensures q == 1.0 <==> count == total
    ensures q == 0.0 <==> count == 0
  {
    ShareInUnitInterval(count as real, total as real);
    assert (total as real) / (total as real) == 1.0;
    (count as real) / (total as real)
  }

  /** Transparency is always a share in [0, 1]. */
  lemma TransparencyBounds(f: Record)
    ensures 0.0 <= Transparency(f) <= 1.0
  {
  }

  /** Transparency is 1 exactly when there is at least one policy and every policy is
      adopted, and 0 exactly when no listed policy is adopted. */
  lemma TransparencyExtremes(f: Record)
    ensures Transparency(f) == 1.0 <==>
              f.policies.Some? && f.policies.value != [] &&
              forall i :: 0 <= i < |f.policies.value| ==> Adopted(f.policies.value[i].value)
    ensures Transparency(f) == 0.0 <==>
              f.policies.None? ||
              forall i :: 0 <= i < |f.policies.value| ==> !Adopted(f.policies.value[i].value)
  {
    if f.policies.Some? && f.policies.value != [] {
      var policies := f.policies.value;
      var flags := Values(policies);
      assert forall i :: 0 <= i < |policies| ==> flags[i] == policies[i].value;
      CountAdoptedExtremes(flags);
    }
  }

  /** Recording a policy as `False` instead of leaving it `null` does not change the score. */
  lemma FalseAndNullPoliciesAlike(f: Record, i: nat)
    requires f.policies.Some? && i < |f.policies.value|
    requires f.policies.value[i].value == None
    ensures var p := f.policies.value;
            Transparency(f.(policies := Some(p[i := p[i].(value := Some(false))]))) == Transparency(f)
  {
    var p := f.policies.value;
    var q := p[i := p[i].(value := Some(false))];
    CountAdoptedPointwise(Values(p), Values(q));
  }

  lemma {:induction false} CountAdoptedPointwise(a: seq<Option<bool>>, b: seq<Option<bool>>)
    requires |a| == |b|
    requires forall i :: 0 <= i < |a| ==> (Adopted(a[i]) <==> Adopted(b[i]))
    ensures CountAdopted(a) == CountAdopted(b)
  {
    if a != [] {
      CountAdoptedPointwise(a[1..], b[1..]);
    }
  }
}

=== FILE: number_tokens.dfy ===
/** `_to_number` of the Form 990 converter: a captured numeric token is cleaned of commas
    and surrounding whitespace and handed to Python's `int()`. */
module NumberTokens {
  import opened Wrappers

  /** Python's `ValueError` from `int()`, carrying the text it refused. */
  datatype ParseError = InvalidLiteral(text: string)

  // ---------------------------------------------------------------------------
  // Cleaning: `txt.replace(",", "").strip()`
  // ---------------------------------------------------------------------------

  /** `c.isspace()`: the characters `str.strip()` removes. */
  predicate IsSpace(c: char)
  {
    || c == ' ' || '\t' <= c <= '\r' || '\U{1C}' <= c <= '\U{1F}'
    || c == '\U{85}' || c == '\U{A0}' || c == '\U{1680}' || '\U{2000}' <= c <= '\U{200A}'
    || c == '\U{2028}' || c == '\U{2029}' || c == '\U{202F}' || c == '\U{205F}' || c == '\U{3000}'
  }

  /** `s.replace(",", "")`. */
  function RemoveCommas(s: string): (r: string)
    ensures ',' !in r
  {
    if s == [] then []
    else (if s[0] == ',' then [] else [s[0]]) + RemoveCommas(s[1..])
  }

  lemma {:induction false} RemoveCommasAppend(a: string, b: string)
    ensures RemoveCommas(a + b) == RemoveCommas(a) + RemoveCommas(b)
  {
    if a == [] {
      assert a + b == b;
    } else {
      var t := a[1..];
      assert (a + b)[0] == a[0] && (a + b)[1..] == t + b;
      RemoveCommasAppend(t, b);
    }
  }

  /** `s.lstrip()`: the longest suffix that does not start with whitespace. */
  function StripLeading(s: string): (r: string)
    ensures |r| <= |s| && r == s[|s| - |r|..]
    ensures forall i :: 0 <= i < |s| - |r| ==> IsSpace(s[i])
    ensures r != [] ==> !IsSpace(r[0])
  {
    if s != [] && IsSpace(s[0]) then StripLeading(s[1..]) else s
  }

  /** `s.rstrip()`: the longest prefix that does not end with whitespace. */
  function StripTrailing(s: string): (r: string)
    ensures |r| <= |s| && r == s[..|r|]
    ensures forall i :: |r| <= i < |s| ==> IsSpace(s[i])
    ensures r != [] ==> !IsSpace(r[|r| - 1])
  {
    if s != [] && IsSpace(s[|s| - 1]) then StripTrailing(s[..|s| - 1]) else s
  }

  /** `s.strip()`. */
  function Strip(s: string): string
  {
    StripTrailing(StripLeading(s))
  }

  /** `strip()` never lengthens the text and leaves no whitespace at either end. */
  lemma StripShape(s: string)
    ensures |Strip(s)| <= |s|
    ensures Strip(s) != [] ==> !IsSpace(Strip(s)[0]) && !IsSpace(Strip(s)[|Strip(s)| - 1])
  {
    var v := StripLeading(s);
    var w := StripTrailing(v);
    assert w != [] ==> !IsSpace(w[0]) by {
      if w != [] {
        assert w[0] == v[0];
      }
    }
  }

  /** The text `_to_number` hands to `int()`: commas removed first, then whitespace
      stripped from both ends. */
  function Clean(s: string): string
  {
    Strip(RemoveCommas(s))
  }

  lemma {:induction false} RemoveCommasShorter(s: string)
    ensures |RemoveCommas(s)| <= |s|
  {
    if s != [] {
      RemoveCommasShorter(s[1..]);
    }
  }

  /** A cleaned token is no longer than the token, holds no comma, and neither starts nor
      ends with whitespace. */
  lemma CleanShape(s: string)
    ensures |Clean(s)| <= |s|
    ensures ',' !in Clean(s)
    ensures Clean(s) != [] ==> !IsSpace(Clean(s)[0]) && !IsSpace(Clean(s)[|Clean(s)| - 1])
  {
    var u := RemoveCommas(s);
    RemoveCommasShorter(s);
    var v := StripLeading(u);
    assert ',' !in v by {
      assert forall i :: 0 <= i < |v| ==> v[i] == u[|u| - |v| + i];
    }
    var w := StripTrailing(v);
    assert ',' !in w by {
      assert forall i :: 0 <= i < |w| ==> w[i] == v[i];
    }
    assert w != [] ==> !IsSpace(w[0]) by {
      if w != [] {
        assert w[0] == v[0];
      }
    }
  }

  // ---------------------------------------------------------------------------
  // `int()` on a base-10 string
  // ---------------------------------------------------------------------------

  predicate IsDigit(c: char)
  {
    '0' <= c <= '9'
  }

  function DigitValue(c: char): nat
    requires IsDigit(c)
  {
    (c as int) - ('0' as int)
  }

  predicate IsSign(c: char)
  {
    c == '+' || c == '-'
  }

  /** Digits with single underscores between them: what `int()` accepts after the sign. */
  predicate IsDigitGroups(s: string)
  {
    && |s| > 0
    && (forall i :: 0 <= i < |s| ==> IsDigit(s[i]) || s[i] == '_')
    && s[0] != '_' && s[|s| - 1] != '_'
    && (forall i :: 0 <= i < |s| - 1 ==> s[i] == '_' ==> s[i + 1] != '_')
  }

  /** The text after an optional leading sign. */
  function Unsigned(s: string): string
  {
    if |s| > 0 && IsSign(s[0]) then s[1..] else s
  }

  /** The strings `int()` accepts (its surrounding whitespace is already stripped). */
  predicate IsIntLiteral(s: string)
  {
    IsDigitGroups(Unsigned(s))
  }

  /** The digits of `s` with the underscores dropped. */
  function DigitsOnly(s: string): (d: string)
    requires forall i :: 0 <= i < |s| ==> IsDigit(s[i]) || s[i] == '_'
    ensures forall i :: 0 <= i < |d| ==> IsDigit(d[i])
    ensures (forall i :: 0 <= i < |s| ==> IsDigit(s[i])) ==> d == s
  {
    if s == [] then []
    else (if s[0] == '_' then [] else [s[0]]) + DigitsOnly(s[1..])
  }

  /** The value of a decimal numeral: appending a digit multiplies what precedes it by ten. */
  function DigitsValue(d: string): nat
    requires forall i :: 0 <= i < |d| ==> IsDigit(d[i])
  {
    if d == [] then 0 else DigitsValue(d[..|d| - 1]) * 10 + DigitValue(d[|d| - 1])
  }

  /** The integer an accepted literal denotes. */
  function LiteralValue(s: string): int
    requires IsIntLiteral(s)
  {
    var v: int := DigitsValue(DigitsOnly(Unsigned(s)));
    if s[0] == '-' then -v else v
  }

  /** What `int()` accepts: the last character is a digit, every character after the first
      is a digit or an underscore, and every non-empty run of plain digits is accepted. */
  lemma IntLiteralShape(s: string)
    ensures IsIntLiteral(s) ==> |s| > 0 && IsDigit(s[|s| - 1])
    ensures IsIntLiteral(s) ==> forall i :: 0 < i < |s| ==> IsDigit(s[i]) || s[i] == '_'
    ensures |s| > 0 && (forall i :: 0 <= i < |s| ==> IsDigit(s[i])) ==> IsIntLiteral(s)
  {
    if IsIntLiteral(s) {
      var u := Unsigned(s);
      var k := |s| - |u|;
      forall i | 0 < i < |s|
        ensures IsDigit(s[i]) || s[i] == '_'
      {
        assert s[i] == u[i - k];
      }
      assert s[|s| - 1] == u[|u| - 1];
    }
    if |s| > 0 && (forall i :: 0 <= i < |s| ==> IsDigit(s[i])) {
      assert !IsSign(s[0]);
      assert Unsigned(s) == s;
    }
  }

  /** The value of a literal is negative only with a leading minus, never positive with
      one, and is the plain decimal value of a run of digits. */
  lemma LiteralValueSign(s: string)
    requires IsIntLiteral(s)
    ensures LiteralValue(s) < 0 ==> s[0] == '-'
    ensures s[0] == '-' ==> LiteralValue(s) <= 0
    ensures (forall i :: 0 <= i < |s| ==> IsDigit(s[i])) ==> LiteralValue(s) == DigitsValue(s)
  {
  }

  /** The left-to-right scan `int()` performs over the unsigned part: `acc` is the value
      read so far and `afterDigit` says whether the previous character was a digit, the
      only place an underscore may appear. */
  function ScanDigits(s: string, acc: nat, afterDigit: bool): Option<nat>
  {
    if s == [] then (if afterDigit then Some(acc) else None)
    else if IsDigit(s[0]) then ScanDigits(s[1..], acc * 10 + DigitValue(s[0]), true)
    else if s[0] == '_' && afterDigit then ScanDigits(s[1..], acc, false)
    else None
  }

  /** What the rest of a literal may be once a digit has been read. */
  predicate GroupsAfterDigit(s: string)
  {
    s == [] || IsDigitGroups(s) || (s[0] == '_' && IsDigitGroups(s[1..]))
  }

  lemma DigitGroupsDropDigit(s: string)
    requires |s| >= 2 && IsDigit(s[0]) && s[1] != '_'
    ensures IsDigitGroups(s) <==> IsDigitGroups(s[1..])
  {
    var t := s[1..];
    assert forall i :: 0 <= i < |t| ==> t[i] == s[i + 1];
    if IsDigitGroups(t) {
      forall i | 0 <= i < |s| - 1 && s[i] == '_'
        ensures s[i + 1] != '_'
      {
        assert t[i - 1] == '_';
      }
    }
  }

  lemma DigitGroupsDropUnderscore(s: string)
    requires |s| >= 2 && IsDigit(s[0]) && s[1] == '_'
    ensures IsDigitGroups(s) <==> IsDigitGroups(s[2..])
  {
    var u := s[2..];
    assert forall i :: 0 <= i < |u| ==> u[i] == s[i + 2];
    if IsDigitGroups(s) {
      assert |s| > 2;
      assert u[0] == s[2];
      forall i | 0 <= i < |u| - 1 && u[i] == '_'
        ensures u[i + 1] != '_'
      {
        assert s[i + 2] == '_';
      }
    }
    if IsDigitGroups(u) {
      forall i | 0 <= i < |s| - 1 && s[i] == '_'
        ensures s[i + 1] != '_'
      {
        if i >= 2 {
          assert u[i - 2] == '_';
        }
      }
    }
  }

  lemma DigitGroupsCons(c: char, t: string)
    requires IsDigit(c)
    ensures IsDigitGroups([c] + t) <==> GroupsAfterDigit(t)
  {
    var s := [c] + t;
    if t == [] {
      assert IsDigitGroups(s);
    } else if t[0] == '_' {
      assert s[2..] == t[1..];
      DigitGroupsDropUnderscore(s);
    } else {
      assert s[1..] == t;
      DigitGroupsDropDigit(s);
    }
  }

  /** The scan accepts exactly the digit groups of the grammar. */
  lemma {:induction false} ScanDigitsAccepts(s: string, acc: nat, afterDigit: bool)
    ensures ScanDigits(s, acc, afterDigit).Some? <==>
              (if afterDigit then GroupsAfterDigit(s) else IsDigitGroups(s))
    decreases |s|
  {
    if s == [] {
    } else if IsDigit(s[0]) {
      ScanDigitsAccepts(s[1..], acc * 10 + DigitValue(s[0]), true);
      assert s == [s[0]] + s[1..];
      DigitGroupsCons(s[0], s[1..]);
    } else if s[0] == '_' && afterDigit {
      ScanDigitsAccepts(s[1..], acc, false);
    }
  }

  /** Reading the digits `d` from the left onto the value `acc` already read. */
  function ReadDigits(acc: nat, d: string): nat
    requires forall i :: 0 <= i < |d| ==> IsDigit(d[i])
    decreases |d|
  {
    if d == [] then acc else ReadDigits(acc * 10 + DigitValue(d[0]), d[1..])
  }

  /** Reading `b` on top of the value of `a` gives the value of `a + b`. */
  lemma {:induction false} ReadDigitsValue(a: string, b: string)
    requires forall i :: 0 <= i < |a| ==> IsDigit(a[i])
    requires forall i :: 0 <= i < |b| ==> IsDigit(b[i])
    ensures forall i :: 0 <= i < |a + b| ==> IsDigit((a + b)[i])
    ensures ReadDigits(DigitsValue(a), b) == DigitsValue(a + b)
    decreases |b|
  {
    assert forall i :: 0 <= i < |a + b| ==> IsDigit((a + b)[i]) by {
      assert forall i :: |a| <= i < |a + b| ==> (a + b)[i] == b[i - |a|];
    }
    if b == [] {
      assert a + b == a;
    } else {
      var next := a + [b[0]];
      assert DigitsValue(next) == DigitsValue(a) * 10 + DigitValue(b[0]) by {
        assert next[..|next| - 1] == a;
      }
      ReadDigitsValue(next, b[1..]);
      assert next + b[1..] == a + b;
    }
  }

  /** What the scan accepts, it values as the digits it read, on top of `acc`. */
  lemma {:induction false} ScanDigitsValue(s: string, acc: nat, afterDigit: bool)
    requires ScanDigits(s, acc, afterDigit).Some?
    ensures forall i :: 0 <= i < |s| ==> IsDigit(s[i]) || s[i] == '_'
    ensures ScanDigits(s, acc, afterDigit).value == ReadDigits(acc, DigitsOnly(s))
    decreases |s|
  {
    if s == [] {
    } else {
      assert forall i :: 1 <= i < |s| ==> s[i] == s[1..][i - 1];
      if IsDigit(s[0]) {
        ScanDigitsValue(s[1..], acc * 10 + DigitValue(s[0]), true);
        var rest := DigitsOnly(s[1..]);
        assert DigitsOnly(s) == [s[0]] + rest;
        assert ([s[0]] + rest)[1..] == rest;
      } else {
        ScanDigitsValue(s[1..], acc, false);
        assert DigitsOnly(s) == DigitsOnly(s[1..]);
      }
    }
  }

  /** `int(s)` for a base-10 string whose surrounding whitespace is already gone. */
  function ParseInt(s: string): (r: Result<int, ParseError>)
    ensures r.Success? <==> IsIntLiteral(s)
    ensures r.Success? ==> r.value == LiteralValue(s)
  {
    ScanDigitsAccepts(Unsigned(s), 0, false);
    match ScanDigits(Unsigned(s), 0, false)
    case None => Failure(InvalidLiteral(s))
    case Some(n) =>
      ScanDigitsValue(Unsigned(s), 0, false);
      ReadDigitsValue([], DigitsOnly(Unsigned(s)));
      assert [] + DigitsOnly(Unsigned(s)) == DigitsOnly(Unsigned(s));
      Success(if |s| > 0 && s[0] == '-' then -(n as int) else n)
  }

  // ---------------------------------------------------------------------------
  // `_to_number`
  // ---------------------------------------------------------------------------

  /** `_to_number(txt)`: `None` passes through; a token that is blank or a lone `-` once
      cleaned gives `None`; anything else is handed to `int()`, which may raise. */
  function ToNumber(txt: Option<string>): (r: Result<Option<int>, ParseError>)
    ensures txt.None? ==> r == Success(None)
    ensures txt.Some? ==>
              (r == Success(None) <==> Clean(txt.value) == "" || Clean(txt.value) == "-")
    ensures txt.Some? ==>
              (r.Failure? <==> Clean(txt.value) != "" && Clean(txt.value) != "-" && !IsIntLiteral(Clean(txt.value)))
    ensures txt.Some? && r.Success? && r.value.Some? ==>
              IsIntLiteral(Clean(txt.value)) && r.value.value == LiteralValue(Clean(txt.value))
    ensures txt.Some? && IsIntLiteral(Clean(txt.value)) ==>
              r == Success(Some(LiteralValue(Clean(txt.value))))
  {
    match txt
    case None => Success(None)
    case Some(s) =>
      var cleaned := Clean(s);
      if cleaned == "" || cleaned == "-" then Success(None)
      else
        match ParseInt(cleaned)
        case Failure(e) => Failure(e)
        case Success(n) => Success(Some(n))
  }

  lemma RemoveCommasComma(c: string)
    requires c == ","
    ensures RemoveCommas(c) == []
  {
    assert c[1..] == [];
  }

  /** A comma between two pieces disappears when commas are removed. */
  lemma CommaJoin(a: string, b: string)
    ensures RemoveCommas(a + "," + b) == RemoveCommas(a + b)
  {
    var c := ",";
    RemoveCommasComma(c);
    RemoveCommasAppend(a + c, b);
    RemoveCommasAppend(a, c);
    RemoveCommasAppend(a, b);
  }

  /** Inserting a comma anywhere in a token never changes what it converts to. */
  lemma CommaInsertionKeepsValue(s: string, i: nat)
    requires i <= |s|
    ensures ToNumber(Some(s[..i] + "," + s[i..])) == ToNumber(Some(s))
  {
    var a, b := s[..i], s[i..];
    assert RemoveCommas(a + "," + b) == RemoveCommas(s) by {
      assert a + b == s;
      CommaJoin(a, b);
    }
    SameCleanSameNumber(a + "," + b, s);
  }

  lemma RemoveCommasKeeps(s: string)
    requires forall i :: 0 <= i < |s| ==> s[i] != ','
    ensures RemoveCommas(s) == s
  {
    if s != [] {
      RemoveCommasKeeps(s[1..]);
      assert s == [s[0]] + s[1..];
    }
  }

  lemma StripKeeps(s: string)
    requires s != [] && !IsSpace(s[0]) && !IsSpace(s[|s| - 1])
    ensures Strip(s) == s
  {
    assert StripLeading(s) == s;
  }

  /** A token without commas, whitespace or a sign, made of digits only, cleans to itself. */
  lemma CleanSignedDigits(sign: string, d: string)
    requires sign == "" || sign == "-"
    requires |d| > 0 && forall i :: 0 <= i < |d| ==> IsDigit(d[i])
    ensures RemoveCommas(sign + d) == sign + d
    ensures Clean(sign + d) == sign + d
  {
    var s := sign + d;
    SignedDigitsChars(sign, d);
    assert RemoveCommas(s) == s by {
      RemoveCommasKeeps(s);
    }
    assert Strip(s) == s by {
      StripKeeps(s);
    }
  }

  lemma SignedDigitsChars(sign: string, d: string)
    requires sign == "" || sign == "-"
    requires forall i :: 0 <= i < |d| ==> IsDigit(d[i])
    ensures forall i :: 0 <= i < |sign + d| ==> (sign + d)[i] == '-' || IsDigit((sign + d)[i])
  {
    var s := sign + d;
    forall i | 0 <= i < |s|
      ensures s[i] == '-' || IsDigit(s[i])
    {
      if i >= |sign| {
        assert s[i] == d[i - |sign|];
      }
    }
  }

  /** An optional leading minus followed by digits is a literal denoting that integer. */
  lemma SignedDigitsLiteral(sign: string, d: string)
    requires sign == "" || sign == "-"
    requires |d| > 0 && forall i :: 0 <= i < |d| ==> IsDigit(d[i])
    ensures IsIntLiteral(sign + d)
    ensures LiteralValue(sign + d) == if sign == "-" then -(DigitsValue(d) as int) else DigitsValue(d)
  {
    SignedSplit(sign, d);
    DigitsAreGroups(d);
    assert DigitsOnly(d) == d;
  }

  /** The sign of `sign + d` is `sign`, and what follows it is `d`. */
  lemma SignedSplit(sign: string, d: string)
    requires sign == "" || sign == "-"
    requires |d| > 0 && forall i :: 0 <= i < |d| ==> IsDigit(d[i])
    ensures Unsigned(sign + d) == d
    ensures (sign + d)[0] == '-' <==> sign == "-"
  {
    var s := sign + d;
    if sign == "" {
      assert s == d;
      assert !IsSign(s[0]) by {
        assert IsDigit(d[0]);
      }
    } else {
      assert s[0] == '-' && s[1..] == d;
    }
  }

  /** Plain digits, without underscores, are digit groups. */
  lemma DigitsAreGroups(d: string)
    requires |d| > 0 && forall i :: 0 <= i < |d| ==> IsDigit(d[i])
    ensures IsDigitGroups(d)
  {
  }

  /** An optional leading minus followed by digits converts to that integer. */
  lemma SignedDigitsConvert(negative: bool, d: string)
    requires |d| > 0 && forall i :: 0 <= i < |d| ==> IsDigit(d[i])
    ensures var sign := if negative then "-" else "";
            ToNumber(Some(sign + d)) == Success(Some(if negative then -(DigitsValue(d) as int) else DigitsValue(d)))
  {
    var sign := if negative then "-" else "";
    var s := sign + d;
    assert Clean(s) == s by {
      CleanSignedDigits(sign, d);
    }
    assert IsIntLiteral(s) && LiteralValue(s) == if negative then -(DigitsValue(d) as int) else DigitsValue(d) by {
      SignedDigitsLiteral(sign, d);
    }
    ParsedTokenConverts(s);
  }

  /** A cleaned token `int()` accepts converts to the integer it denotes. */
  lemma ParsedTokenConverts(s: string)
    requires Clean(s) == s && IsIntLiteral(s)
    ensures ToNumber(Some(s)) == Success(Some(LiteralValue(s)))
  {
  }

  /** A character other than a digit, a sign or an underscore left after cleaning makes
      `int()` raise. */
  lemma UnexpectedCharacterRaises(s: string, i: nat)
    requires i < |Clean(s)|
    requires var c := Clean(s)[i]; !IsDigit(c) && !IsSign(c) && c != '_'
    ensures ToNumber(Some(s)).Failure?
  {
    var cleaned := Clean(s);
    assert !IsIntLiteral(cleaned) by {
      var u := Unsigned(cleaned);
      if |cleaned| > 0 && IsSign(cleaned[0]) {
        assert u[i - 1] == cleaned[i];
      } else {
        assert u[i] == cleaned[i];
      }
    }
    RejectedTokenRaises(s);
  }

  /** A cleaned token that is neither blank, a lone `-`, nor an `int()` literal raises. */
  lemma RejectedTokenRaises(s: string)
    requires Clean(s) != "" && Clean(s) != "-" && !IsIntLiteral(Clean(s))
    ensures ToNumber(Some(s)).Failure?
  {
  }

  /** A token that still ends in `-` after cleaning, other than a lone `-`, makes `int()`
      raise. */
  lemma TrailingMinusRaises(s: string)
    requires |Clean(s)| >= 2 && Clean(s)[|Clean(s)| - 1] == '-'
    ensures ToNumber(Some(s)).Failure?
  {
    var cleaned := Clean(s);
    assert !IsIntLiteral(cleaned) by {
      var u := Unsigned(cleaned);
      assert |u| > 0 && u[|u| - 1] == '-' by {
        if IsSign(cleaned[0]) {
          assert u == cleaned[1..];
        }
      }
      assert !IsDigit(u[|u| - 1]);
    }
    RejectedTokenRaises(s);
  }

  // ---------------------------------------------------------------------------
  // Amounts as a Form 990 prints them
  // ---------------------------------------------------------------------------

  function DigitChar(n: nat): (c: char)
    requires n < 10
    ensures IsDigit(c) && DigitValue(c) == n
  {
    ('0' as int + n) as char
  }

  /** The decimal digits of `n`, without leading zeros. */
  function DecimalDigits(n: nat): (d: string)
    ensures |d| > 0 && forall i :: 0 <= i < |d| ==> IsDigit(d[i])
    ensures DigitsValue(d) == n
  {
    if n < 10 then
      assert [DigitChar(n)][..0] == [];
      [DigitChar(n)]
    else
      var front, last := DecimalDigits(n / 10), DigitChar(n % 10);
      var d := front + [last];
      assert forall i :: 0 <= i < |front| ==> d[i] == front[i];
      assert d[..|d| - 1] == front;
      d
  }

  /** Digits with a comma before every group of three, counted from the right. */
  function GroupThousands(d: string): (r: string)
    ensures RemoveCommas(r) == RemoveCommas(d)
  {
    if |d| <= 3 then d
    else
      var head, tail := d[..|d| - 3], d[|d| - 3..];
      var front := GroupThousands(head);
      assert RemoveCommas(front + "," + tail) == RemoveCommas(head) + RemoveCommas(tail) by {
        CommaJoin(front, tail);
        RemoveCommasAppend(front, tail);
      }
      assert RemoveCommas(d) == RemoveCommas(head) + RemoveCommas(tail) by {
        assert d == head + tail;
        RemoveCommasAppend(head, tail);
      }
      front + "," + tail
  }

  /** An amount as the form prints it: `1,234,567`, or `-292` for a loss. */
  function FormatAmount(n: int): string
  {
    if n < 0 then "-" + GroupThousands(DecimalDigits(-n)) else GroupThousands(DecimalDigits(n))
  }

  /** `_to_number` looks at a token only through its cleaned text. */
  lemma SameCleanSameNumber(a: string, b: string)
    requires RemoveCommas(a) == RemoveCommas(b)
    ensures ToNumber(Some(a)) == ToNumber(Some(b))
  {
    assert Clean(a) == Clean(b);
  }

  /** Removing the commas of a printed amount leaves its sign and digits. */
  lemma FormatAmountDigits(n: int)
    ensures var d := DecimalDigits(if n < 0 then -n else n);
            RemoveCommas(FormatAmount(n)) == (if n < 0 then "-" else "") + d
  {
    var d := DecimalDigits(if n < 0 then -n else n);
    var sign := if n < 0 then "-" else "";
    assert FormatAmount(n) == sign + GroupThousands(d);
    RemoveCommasAppend(sign, GroupThousands(d));
    RemoveCommasKeeps(sign);
    assert forall i :: 0 <= i < |d| ==> d[i] != ',';
    RemoveCommasKeeps(d);
  }

  /** Converting a printed amount gives back the amount. */
  lemma FormatAmountRoundTrip(n: int)
    ensures ToNumber(Some(FormatAmount(n))) == Success(Some(n))
  {
    var d := DecimalDigits(if n < 0 then -n else n);
    var sign := if n < 0 then "-" else "";
    assert ToNumber(Some(FormatAmount(n))) == ToNumber(Some(sign + d)) by {
      FormatAmountDigits(n);
      CleanSignedDigits(sign, d);
      SameCleanSameNumber(FormatAmount(n), sign + d);
    }
    assert ToNumber(Some(sign + d)) == Success(Some(n)) by {
      SignedDigitsConvert(n < 0, d);
    }
  }

  /** A loss as the form prints it. */
  lemma LossExample()
    ensures ToNumber(Some("-292")) == Success(Some(-292))
  {
    assert "-292" == "-" + "292";
    assert DigitsValue("292") == 292 by {
      assert "292"[..2] == "29";
      assert "29"[..1] == "2";
      assert "2"[..0] == [];
    }
    SignedDigitsConvert(true, "292");
  }

  /** Leading whitespace is skipped by `lstrip()`. */
  lemma {:induction false} StripLeadingSpaces(a: string, t: string)
    requires forall i :: 0 <= i < |a| ==> IsSpace(a[i])
    ensures StripLeading(a + t) == StripLeading(t)
  {
    if a == [] {
      assert a + t == t;
    } else {
      assert (a + t)[0] == a[0] && (a + t)[1..] == a[1..] + t;
      StripLeadingSpaces(a[1..], t);
    }
  }

  /** Trailing whitespace is skipped by `rstrip()`. */
  lemma {:induction false} StripTrailingSpaces(t: string, b: string)
    requires forall i :: 0 <= i < |b| ==> IsSpace(b[i])
    ensures StripTrailing(t + b) == StripTrailing(t)
  {
    if b == [] {
      assert t + b == t;
    } else {
      var u := t + b;
      var b' := b[..|b| - 1];
      assert u[|u| - 1] == b[|b| - 1] && u[..|u| - 1] == t + b';
      StripTrailingSpaces(t, b');
    }
  }

  /** A cell holding only whitespace gives no number. */
  lemma BlankCell(a: string)
    requires forall i :: 0 <= i < |a| ==> IsSpace(a[i])
    ensures ToNumber(Some(a)) == Success(None)
  {
    assert Clean(a) == "" by {
      RemoveCommasKeeps(a);
      StripLeadingSpaces(a, []);
      assert a + [] == a;
    }
  }

  /** A cell holding a dash, however padded with whitespace, gives no number. */
  lemma DashCell(a: string, b: string)
    requires forall i :: 0 <= i < |a| ==> IsSpace(a[i])
    requires forall i :: 0 <= i < |b| ==> IsSpace(b[i])
    ensures ToNumber(Some(a + "-" + b)) == Success(None)
  {
    var s := a + "-" + b;
    assert RemoveCommas(s) == s by {
      PaddedDashHasNoComma(a, b);
    }
    assert StripLeading(s) == "-" + b by {
      assert s == a + ("-" + b);
      StripLeadingSpaces(a, "-" + b);
    }
    assert StripTrailing("-" + b) == "-" by {
      StripTrailingSpaces("-", b);
    }
  }

  lemma PaddedDashHasNoComma(a: string, b: string)
    requires forall i :: 0 <= i < |a| ==> IsSpace(a[i])
    requires forall i :: 0 <= i < |b| ==> IsSpace(b[i])
    ensures RemoveCommas(a + "-" + b) == a + "-" + b
  {
    SpacesHaveNoComma(a);
    DashThenSpacesHaveNoComma(b);
    RemoveCommasAppend(a, "-" + b);
    assert a + "-" + b == a + ("-" + b);
  }

  lemma DashThenSpacesHaveNoComma(b: string)
    requires forall i :: 0 <= i < |b| ==> IsSpace(b[i])
    ensures RemoveCommas("-" + b) == "-" + b
  {
    SpacesHaveNoComma(b);
    assert ("-" + b)[1..] == b;
  }

  lemma SpacesHaveNoComma(a: string)
    requires forall i :: 0 <= i < |a| ==> IsSpace(a[i])
    ensures RemoveCommas(a) == a
  {
    RemoveCommasKeeps(a);
  }

  /** An amount in accounting parentheses, `(292)`, reaches `_to_number` as `292)`: the
      skip `[^\d-]*` before the revenue-less-expenses group consumes the opening
      parenthesis. That token is not a number to `int()`. */
  lemma ParenthesizedAmountRaises(d: string)
    requires |d| > 0 && forall i :: 0 <= i < |d| ==> IsDigit(d[i])
    ensures ToNumber(Some(d + ")")).Failure?
  {
    var token := d + ")";
    assert Clean(token) == token by {
      DigitsThenMarkCleans(d, ')');
    }
    UnexpectedCharacterRaises(token, |d|);
  }

  /** Neither is an amount with a trailing minus, `292-`. */
  lemma TrailingMinusAmountRaises(d: string)
    requires |d| > 0 && forall i :: 0 <= i < |d| ==> IsDigit(d[i])
    ensures ToNumber(Some(d + "-")).Failure?
  {
    var token := d + "-";
    assert Clean(token) == token by {
      DigitsThenMarkCleans(d, '-');
    }
    TrailingMinusRaises(token);
  }

  /** Digits followed by one mark that is neither a comma nor whitespace clean to
      themselves. */
  lemma DigitsThenMarkCleans(d: string, mark: char)
    requires |d| > 0 && forall i :: 0 <= i < |d| ==> IsDigit(d[i])
    requires mark != ',' && !IsSpace(mark)
    ensures Clean(d + [mark]) == d + [mark]
  {
    var token := d + [mark];
    assert forall i :: 0 <= i < |d| ==> token[i] == d[i];
    RemoveCommasKeeps(token);
    StripKeeps(token);
  }
}

=== FILE: real_sums.dfy ===
/** Exact sums and maxima over sequences of reals: Python's `sum(...)` and `max(...)`
    over dict values, without floating-point rounding. */
module RealSums {

  /** `sum(xs)`. Python adds from the left; over exact reals the grouping does not matter. */
  function Sum(xs: seq<real>): (s: real)
    ensures xs == [] ==> s == 0.0
    ensures (forall i :: 0 <= i < |xs| ==> 0.0 <= xs[i]) ==> 0.0 <= s
  {
    if xs == [] then 0.0 else xs[0] + Sum(xs[1..])
  }

  lemma {:induction false} SumAppend(xs: seq<real>, ys: seq<real>)
    ensures Sum(xs + ys) == Sum(xs) + Sum(ys)
  {
    if xs == [] {
      assert xs + ys == ys;
    } else {
      assert (xs + ys)[1..] == xs[1..] + ys;
      SumAppend(xs[1..], ys);
    }
  }

  /** Taking one element out of a sequence takes its value out of the sum. */
  lemma SumRemove(ys: seq<real>, i: nat)
    requires i < |ys|
    ensures Sum(ys) == ys[i] + Sum(ys[..i] + ys[i + 1..])
  {
    var pre, post := ys[..i], ys[i + 1..];
    var rest := [ys[i]] + post;
    assert Sum(rest) == ys[i] + Sum(post) by {
      assert rest[1..] == post;
    }
    assert Sum(ys) == Sum(pre) + Sum(rest) by {
      assert ys == pre + rest;
      SumAppend(pre, rest);
    }
    assert Sum(pre + post) == Sum(pre) + Sum(post) by {
      SumAppend(pre, post);
    }
  }

  lemma MultisetRemove<T>(ys: seq<T>, i: nat)
    requires i < |ys|
    ensures multiset(ys[..i] + ys[i + 1..]) == multiset(ys) - multiset{ys[i]}
  {
    assert ys == ys[..i] + [ys[i]] + ys[i + 1..];
  }

  /** The first element of a sequence occurs somewhere in any permutation of it. */
  lemma MatchingIndex<T>(a: seq<T>, b: seq<T>)
    requires multiset(a) == multiset(b) && 0 < |a|
    ensures exists i :: 0 <= i < |b| && b[i] == a[0]
  {
    assert a[0] in multiset(a);
    assert a[0] in b;
  }

  /** Matching one element of two equal multisets and removing it from both leaves
      equal multisets. */
  lemma MultisetRemoveMatching<T>(a: seq<T>, b: seq<T>, i: nat)
    requires multiset(a) == multiset(b) && 0 < |a| && i < |b| && b[i] == a[0]
    ensures multiset(a[1..]) == multiset(b[..i] + b[i + 1..])
  {
    var ra, rb := a[1..], b[..i] + b[i + 1..];
    assert multiset(ra) == multiset(a) - multiset{a[0]} by {
      assert a == [a[0]] + ra;
    }
    assert multiset(rb) == multiset(b) - multiset{b[i]} by {
      MultisetRemove(b, i);
    }
  }

  /** `max(xs)`: keeps the first of several equal maxima, as Python does. */
  function Max(xs: seq<real>): (m: real)
    requires |xs| > 0
    ensures exists i :: 0 <= i < |xs| && xs[i] == m
    ensures forall i :: 0 <= i < |xs| ==> xs[i] <= m
  {
    if |xs| == 1 then xs[0]
    else
      var rest := Max(xs[1..]);
      assert forall i :: 1 <= i < |xs| ==> xs[i] == xs[1..][i - 1];
      if xs[0] >= rest then xs[0] else rest
  }
}

=== FILE: shady_side.dfy ===
/** The Shady Side Academy record kept with the source as a worked example, scored with
    the default weights. */
module ShadySide {
  import opened Wrappers
  import opened Dicts
  import opened Financials
  import Metrics
  import Calculator

  /** The scored fields of the record; amounts in dollars. */
  const Academy: Record := Record(
    "Shady Side Academy",
    61264018.0,
    46214302.0,
    19134631.0,
    39159042.0,
    965621.0,
    Some([
      Entry("instructional", Program(Some(26606300.0), Some(34274636.0), Some(5563793.0))),
      Entry("auxiliary_services", Program(Some(5563568.0), Some(3071934.0), None)),
      Entry("summer_programs", Program(Some(1027679.0), Some(1436096.0), None))]),
    Some([]),
    Some([
      Entry("conflict_of_interest_policy", Some(true)),
      Entry("whistleblower_policy", Some(true)),
      Entry("document_retention_policy", Some(true)),
      Entry("compensation_review_process", Some(true))]),
    Some(33197547.0 / 46214302.0),
    Some(19134631.0 / 965621.0))

  /** The six metrics of the record: about 0.718 of expenses go to programs; about 19.8
      dollars raised per fundraising dollar caps at 1; no salaries listed gives full pay
      reasonableness; all four policies adopted gives full transparency. */
  lemma AcademyMetrics()
    ensures Calculator.ComputeMetrics(Academy) == Success(Calculator.RawMetrics(
              33197547.0 / 46214302.0,
              1.0,
              39159042.0 / 61264018.0,
              15049716.0 / 61264018.0,
              1.0,
              1.0))
  {
    var programs := Academy.largestProgramExpenses.value;
    assert Metrics.TotalProgramExpenses(programs) == 33197547.0 by {
      assert Metrics.ProgramExpenseValues(programs) == [26606300.0, 5563568.0, 1027679.0];
    }
    assert Metrics.Transparency(Academy) == 1.0 by {
      var flags := Values(Academy.policies.value);
      assert forall i :: 0 <= i < |flags| ==> Metrics.Adopted(flags[i]);
      Metrics.CountAdoptedExtremes(flags);
    }
  }

  /** The stored `program_expense_ratio` agrees with the computed one, but the stored
      `fundraising_efficiency` is the raw ratio, not the capped metric. */
  lemma AcademyPrecomputedRatios()
    ensures Metrics.ProgramExpenseRatio(Academy) == Success(Academy.programExpenseRatio.value)
    ensures Metrics.FundraisingEfficiency(Academy) != Academy.fundraisingEfficiency.value
  {
    AcademyMetrics();
  }

  /** The default score of the record. */
  lemma AcademyScore()
    ensures Calculator.CalculateAem(Calculator.New(None), Academy) ==
              Success(0.3 * (33197547.0 / 46214302.0) + 0.2 + 0.15 * (54208758.0 / 61264018.0) + 0.2)
  {
    AcademyMetrics();
    var m := Calculator.ComputeMetrics(Academy).value;
    assert Calculator.New(None).weights == Calculator.DefaultWeights();
    Calculator.DefaultWeightedSum(m);
  }

  /** The record is internally consistent, so its default score lies in [0, 1]. */
  lemma AcademyScoreInUnitInterval()
    ensures Calculator.ConsistentRecord(Academy)
    ensures 0.0 <= Calculator.CalculateAem(Calculator.New(None), Academy).value <= 1.0
  {
    assert Calculator.ConsistentRecord(Academy) by {
      AcademyMetrics();
    }
    Calculator.ConsistentRecordScoresInUnitInterval(Academy);
  }
}

=== FILE: wrappers.dfy ===
/** Option and Result, the two failure-carrying datatypes the model uses in place of
    Python's `None` and raised exceptions. */
module Wrappers {

  /** A value that may be absent, as Python's `None`. */
  datatype Option<+T> = None | Some(value: T) {

    /** The wrapped value, or `default` when there is none (`d.get(key, default)`). */
    function GetOr(default: T): (r: T)
      ensures this.None? ==> r == default
      ensures this.Some? ==> r == this.value
    {
      match this
      case Some(v) => v
      case None => default
    }
  }

  /** A computation that either produced a value or raised an error. */
  datatype Result<+R, +E> = Success(value: R) | Failure(error: E)
}
